=== FILE: README.md ===
# Advent of Code 2019 in Rust: the Intcode interpreter and the puzzle solvers

This project models the Rust solutions to days 1 to 8 of Advent of Code 2019, except day 5, and proves properties of the model.

The centre of the model is the Intcode interpreter of `src/computer.rs`, module `Computer` in `computer.dfy`. It has these parts:

- Instruction words are split into an opcode and three parameter-mode digits.
- A closed `Instruction` type holds Add, Mul, Inp, Out, JumpTrue, JumpFalse, LessThan, Equals and Halt.
- Operands are `Position` (mode 0) or `Value` (mode 1).
- A machine holds its memory, an input and an output queue, a pointer, a loop flag, and the suspend-on-output switch.
- The run loop steps until the flag is set, then clears it.

The lemmas about the interpreter live in `ComputerLemmas` (`computer_lemmas.dfy`).

The puzzle solvers each have their own module:

- `Fuel` (day 1): fuel for a mass, and fuel that needs fuel.
- `Gravity` (day 2): the first, four-word interpreter.
- `Wires` (day 3): wires on a grid, the set of visited points and the first-visit step counts.
- `Password` (day 4): digit checks over a range.
- `Orbits` (day 6): the orbit map, the total orbit count and the breadth-first transfer search.
- `Amplifiers` (day 7): the serial amplifier chain and the feedback loop of suspend-on-output interpreters.
- `SpaceImage` (day 8): layers of a space image, the checksum and the compositing.

Two shared modules support them:

- `Results`: `Option` and `Result` types.
- `RustInt`: Rust's truncating `/` and `%`.

Every place where the Rust code panics becomes an explicit failure value:

- `unreachable!`, `expect` and `unwrap` on `None`;
- an index out of bounds;
- an arithmetic underflow.

The failure names what went wrong and, for the interpreter, the pointer of the faulting instruction. Loops the program cannot bound get a `fuel` parameter:

- the interpreter's run loop;
- the feedback loop;
- the breadth-first search.

When the fuel runs out, the result is a distinct outcome.

Write-evaluation of a `Value` operand yields its word, just as for a `Position` operand, so an immediate-mode destination is written at the address its word names (`src/computer.rs:15-22`).

Add and Mul take their destination's mode from the second operand's mode digit (`src/computer.rs:220`, `src/computer.rs:225`). `ComputerLemmas.AsDecodedExecutesAlike` shows this never changes how a decoded instruction executes. It does change which words decode: Add and Mul ignore the third mode digit, so 20001 decodes, while the same digit on LessThan (20007) is a decode error.

## Model

| member | source | states |
|---|---|---|
| Computer.ParseOpcode | src/computer.rs:252-261 | The opcode and the three mode fields recompose the word (opcode + 100 m1 + 1000 m2 + 10000 m3). For a non-negative word the opcode is below 100 and the first two modes are single digits; for a negative word no field is positive, as Rust's truncating `/` and `%` give. |
| Computer.ParamFrom | src/computer.rs:32-38 | Mode 0 and mode 1 are the only modes accepted. Any other mode is the unreachable branch. Mode 1 gives an immediate operand. The word is kept, so write-evaluation returns it. |
| Computer.EvaluateWrite | src/computer.rs:15-30 | Write-evaluation yields the raw operand word in both modes: the address of a position operand and the literal of an immediate one. |
| Computer.EvaluateRead | src/computer.rs:15-22 | A read succeeds exactly for an immediate operand or a position inside memory. An immediate operand yields its literal and a position yields the memory word there. An out-of-range position faults, naming the address and the instruction's pointer. |
| Computer.Operands | src/computer.rs:212-246 | Decoding the operands yields one operand per mode. If there is at least one, the last operand word lies in memory. A failure names the instruction's pointer. With the instruction in memory, decoding succeeds exactly when every remaining mode is 0 or 1, and otherwise fails with the decode fault for the instruction word. With the modes supported but the instruction running past the end of memory, the fault is the out-of-bounds read of the first word past the end. |
| Computer.DecodeAt | src/computer.rs:212-250 | A pointer outside memory faults. A word whose opcode is not 1-8 or 99 is a decode fault at that pointer. On success, every operand word of the instruction lies in memory, and the instruction's opcode is the one parsed from the word. For a known opcode whose operand words lie in memory, decoding succeeds exactly when every mode digit the opcode uses is 0 or 1; otherwise it is the decode fault for that word. An instruction with supported modes that runs past the end of memory faults on reading the first word past the end, the index panic of the source. |
| Computer.ExecuteBinary | src/computer.rs:122-137 | Add, Mul, LessThan and Equals succeed exactly when both sources are readable and the destination address is in memory. Exactly the destination cell changes, to the sum, the product, or the 0/1 comparison. The pointer advances by 4 and nothing else changes. |
| Computer.ExecuteInput | src/computer.rs:138-149 | An empty input queue starves the machine at its pointer. Otherwise the head of the queue is consumed and written to the destination, which must be in memory. Nothing but that cell, the queue and the pointer (+2) changes. |
| Computer.ExecuteOutput | src/computer.rs:150-157 | Out succeeds exactly when its operand is readable. It appends that value to the output queue, advances the pointer by 2, and raises the loop flag exactly in suspend-on-output mode. Memory and input are unchanged. |
| Computer.ExecuteJump | src/computer.rs:158-179 | JumpTrue and JumpFalse succeed exactly when the condition is readable and, if the jump is taken, the target is readable. A taken jump sets the pointer to the target unchecked. Otherwise the pointer moves past the 3-word instruction. Nothing else changes. |
| Computer.Execute | src/computer.rs:118-210 | Halt only raises the flag and leaves the pointer on the halt word (width 0). Every other non-jumping instruction advances the pointer by its width. Only Inp and Out touch the queues, only the binary instructions and Inp touch memory, and memory size and configuration are kept. Faults name the pointer. |
| Computer.Step | src/computer.rs:111-116 | A step on a flagged machine does nothing. A successful step keeps memory size and configuration, appends at most one output, and consumes at most the head of the input. In suspend-on-output mode a new output sets the flag. A fault happens only on a running machine and names its pointer. |
| Computer.Width | src/computer.rs:54-66 | Only Halt has width 0; every other instruction is one word wider than its operand count (4, 2 or 3). |
| Computer.Loop | src/computer.rs:90-96 | A finished run has its flag cleared. A run that starts flagged only clears the flag. |
| Computer.Run | src/computer.rs:90-96 | A run that starts flagged only clears the flag. A running machine with no fuel left is cut short. A finished run ends with the flag cleared. |
| Computer.RunTakesStep | src/computer.rs:90-96 | A running machine with fuel left takes one step: a fault ends the run, otherwise the run continues from the stepped machine. |
| Computer.New | src/computer.rs:79-88 | A new machine holds the program, has its pointer at 0, has empty queues and has both flags off. |
| Computer.GetOutput | src/computer.rs:102-104 | The output is the output queue, element for element, without consuming it. |
| Computer.WithHaltOnOutput | src/computer.rs:106-109 | Switches suspend-on-output on and changes nothing else. |
| Computer.AddInput | src/computer.rs:98-100 | Appends exactly one value at the back of the input queue and changes nothing else. |
| ComputerLemmas.ParseOpcodeDigits | src/computer.rs:252-261 | For a non-negative word, the opcode is its last two decimal digits, the first two modes are the next two digits, and the third mode is everything above them. |
| ComputerLemmas.ParseOpcodeOfComposed | src/computer.rs:252-261 | Composing a word from an opcode below 100, two single-digit modes and a third mode, then splitting it, gives the parts back. |
| ComputerLemmas.ParseOpcodeExamples | src/computer.rs:269-274 | 1002, 1101, 2 and 11002 split into the fields the unit test expects. |
| ComputerLemmas.ParseOpcodeModeExamples | src/computer.rs:252-261 | 201, 100007 and 1104 split into (1, 2, 0, 0), (7, 0, 0, 10) and (4, 1, 1, 0): the third mode is not reduced to a digit. |
| ComputerLemmas.DecodeUnsupportedMode | src/computer.rs:32-38 | An Add whose first mode digit is 2 (as in 201) is a decode fault for its word. |
| ComputerLemmas.DecodeUnsupportedHighMode | src/computer.rs:237-241 | A LessThan whose third mode field is 10 (as in 100007) is a decode fault for its word: that field is used as the destination mode as it is. |
| ComputerLemmas.DecodeIgnoresUnusedMode | src/computer.rs:228 | An Out whose first mode digit is 1 decodes to output its immediate operand, whatever its other mode digits are (1104 as well as 104). |
| ComputerLemmas.ParamFromModeOf | src/computer.rs:32-38 | An operand rebuilt from its own word and mode is the same operand. |
| ComputerLemmas.OperandsOf | src/computer.rs:212-246 | When every operand word lies in memory and reads back as the expected operand, the operand decoder yields exactly those operands. |
| ComputerLemmas.DecoderTables | src/computer.rs:216-247 | For every instruction, the decoder's per-opcode mode table applied to the instruction's own mode digits gives the modes of the decoded operands. Assembling those operands gives the decoded instruction. |
| ComputerLemmas.EncodedWord | src/computer.rs:252-261 | The first word of an encoded instruction parses into its opcode and its operands' mode digits. |
| ComputerLemmas.EncodedOperands | src/computer.rs:212-246 | The operand words of an encoded instruction decode into its operands, with the destination mode of Add and Mul taken from the second operand. |
| ComputerLemmas.DecodeEncode | src/computer.rs:212-261 | Decoding an instruction encoded in memory gives it back, up to the destination mode of Add and Mul. It gives it back exactly when that mode equals the second operand's mode, or for any other instruction. |
| ComputerLemmas.AsDecodedExecutesAlike | src/computer.rs:15-22 | Replacing an Add or Mul destination's mode by the second operand's mode never changes the effect of executing the instruction. |
| ComputerLemmas.StepWellBehaved | src/computer.rs:111-210 | Every step keeps memory size and configuration, appends at most one output, and consumes input only from the head. It raises the flag only by executing the halt word (changing nothing else) or by a suspending output. |
| ComputerLemmas.LoopExtendsQueues | src/computer.rs:90-96 | A run of well-behaved steps keeps memory size and configuration. It only appends to the output queue and only consumes the input queue from its front. |
| ComputerLemmas.LoopSuspendsAfterOneOutput | src/computer.rs:90-96 | In suspend-on-output mode a finished run of well-behaved steps adds at most one output value. |
| ComputerLemmas.LoopEndsOnHalt | src/computer.rs:90-96 | A run from a running machine that ends without a suspending output stops with the pointer on a word whose opcode is 99. |
| ComputerLemmas.RunExtendsQueues | src/computer.rs:90-96 | The same for the interpreter's own run: the flag is cleared, memory size and configuration are kept, output is only appended and input only consumed from its front. |
| ComputerLemmas.RunSuspendsAfterOneOutput | src/computer.rs:106-109 | A suspend-on-output interpreter adds at most one output value per run. |
| ComputerLemmas.LoopFuelMonotone | src/computer.rs:90-96 | Fuel only cuts a run short: a run that finished or crashed ends the same way with more fuel. |
| ComputerLemmas.RunFuelMonotone | src/computer.rs:90-96 | The same for the interpreter's run. |
| ComputerLemmas.HaltWordStep | src/computer.rs:204-207 | Stepping a running machine on a halt word raises the flag and changes nothing else. |
| ComputerLemmas.RerunAfterHalt | src/computer.rs:90-96 | Re-running a machine whose run ended on the halt word halts at once, with no new output, no memory change and the same pointer. |
| ComputerLemmas.CompareReadsInput | src/computer.rs:277-286 | The unit-test program's first step stores the input at address 9 and moves to pointer 2. |
| ComputerLemmas.CompareEquals | src/computer.rs:277-286 | Its second step stores 1 at address 9 if the input was 8, 0 otherwise, and moves to pointer 6. |
| ComputerLemmas.CompareExecutesEquals | src/computer.rs:192-203 | Equals with three position operands compares the two addressed words and writes 1 or 0. |
| ComputerLemmas.CompareOutputs | src/computer.rs:150-157 | Its third step outputs the comparison result and moves to pointer 8. |
| ComputerLemmas.CompareHalts | src/computer.rs:204-207 | Its fourth step halts on the 99 at address 8. |
| ComputerLemmas.EqualsEightExample | src/computer.rs:277-286 | The unit-test program outputs 1 exactly when its input is 8 and 0 otherwise (for input 1, the expected 0). |
| RustInt.Quot | src/day1.rs:20 | Rust's `/` rounds toward zero: the remainder of a non-negative dividend is in [0, b) and that of a negative one in (-b, 0]. |
| RustInt.Rem | src/computer.rs:253 | Rust's `%` takes the sign of the dividend, and dividend = b * quotient + remainder. |
| RustInt.NonNegativeAgree | src/computer.rs:252-261 | On non-negative operands Rust's and Dafny's division and remainder agree. |
| RustInt.QuotTwice | src/computer.rs:254-258 | Truncating by 10 twice is truncating by 100. |
| Fuel.Calc | src/day1.rs:19-21 | The fuel of a non-negative mass m is f with 3(f + 2) <= m < 3(f + 2) + 3. A negative mass is divided toward zero. |
| Fuel.Chain | src/day1.rs:23-30 | The fuel chain sums its positive terms, stops at the first non-positive one, and is at least its first positive term. |
| Fuel.TotalFuel | src/day1.rs:23-30 | The total fuel is 0 when the first fuel is not positive. Otherwise it is that fuel plus the total fuel of the fuel. It is never negative. |
| Fuel.Calc2 | src/day1.rs:23-30 | The loop computes the total fuel of the mass, which is never negative. |
| Fuel.SumOfAppend | src/day1.rs:3-9 | Summing over two lists back to back is the sum of the two sums. |
| Fuel.Solve1 | src/day1.rs:3-5 | Part one is the sum of each mass's fuel. |
| Fuel.Solve2 | src/day1.rs:7-9 | Part two is the sum of each mass's total fuel, and is never negative. |
| Fuel.Examples | src/day1.rs:19-30 | 12 and 14 need 2, 1969 needs 654 and 100756 needs 33583. Counting fuel for fuel, 14 needs 2 and 1969 needs 966. |
| Gravity.StepAt | src/day2.rs:32-42 | The three operand positions are checked before the opcode. Any position outside the program fails with "no valid program". An opcode other than 1 or 2 is the unknown-opcode panic. On success only the destination changes, to the sum (1) or the product (2). |
| Gravity.Final | src/day2.rs:30-45 | Past the end the loop fails with an index error. On a 99 it stops with the program unchanged. A successful run ends on a 99 at a multiple of 4 words from its start. |
| Gravity.ProcessProgram | src/day2.rs:29-46 | The loop agrees with the recursive reference definition in every case. It returns the first word of the final program, or the same error. |
| Gravity.Examples | src/day2.rs:60-69 | The four programs of the unit test end with first words 30, 2, 2 and 2. |
| Wires.ParseI32 | src/day3.rs:47 | Exactly the signed numerals parse: an optional `+` or `-`, at least one digit and nothing else, with a value in the 32-bit range. The result is the numeral's value, negative exactly after a `-`. The empty string does not parse. |
| Wires.ParseMove | src/day3.rs:38-50 | A move parses exactly when its first character is R, U, L or D and the rest parses as an `i32`. A missing or other first character is the unreachable branch, and a rest that does not parse is the `unwrap` failure. The direction is the first character and the step count is the parsed rest. |
| Wires.ShowNatDigits | src/day3.rs:47 | The decimal rendering of a natural number is a non-empty digit string denoting it. |
| Wires.ParseShowNat | src/day3.rs:47 | Parsing the digits of a number up to 2^31 - 1 gives it back. |
| Wires.ParseShowNegative | src/day3.rs:47 | Parsing a minus sign followed by the digits of a negative 32-bit number gives it back. |
| Wires.ParseShowInt | src/day3.rs:47 | Parsing a rendered 32-bit number gives it back. |
| Wires.ParseRender | src/day3.rs:38-50 | Parsing a rendered move gives the move back. |
| Wires.ToCoord | src/day3.rs:52-61 | A move visits exactly `steps` points, none for zero or negative steps. The k-th is k + 1 unit steps away in the move's direction. |
| Wires.ToNodes | src/day3.rs:63-84 | The nodes are the same points, the k-th numbered one more than the start count plus k. |
| Wires.DistToOrigin | src/day3.rs:122-124 | The distance is the sum of the absolute values of x and y: it equals one of x + y, x - y, -x + y and -x - y and is at least all four, so non-negative, zero exactly at the origin, and at least each coordinate in absolute value. |
| Wires.DistAlongMove | src/day3.rs:52-61 | n unit steps change the distance to the origin by at most n. |
| Wires.WireFromFails | src/day3.rs:126-137 | The rest of a wire fails exactly when a remaining move has no steps, naming the first such move. |
| Wires.Wire2FromFails | src/day3.rs:139-153 | The same for `wire2`. |
| Wires.WiresFail | src/day3.rs:126-153 | `wire` and `wire2` each succeed exactly when every move has positive steps. Otherwise both fail on the `expect` of the first move without steps, with the same error. |
| Wires.InsertFirst | src/day3.rs:24-36 | Inserting a node into a set of nodes compared by point adds its point. A point already present keeps its first node, and a new point gets the node's step count. |
| Wires.ToCoordOnSegment | src/day3.rs:52-61 | The points of a move are exactly the points of the segment it walks, excluding its start. |
| Wires.LastPointIsNextStart | src/day3.rs:131-133 | A move with positive steps ends where the next move starts. |
| Wires.PathOnSegments | src/day3.rs:126-137 | A point is on the path of the first n moves exactly when it lies on the segment of one of them. |
| Wires.WireFromPath | src/day3.rs:126-137 | The rest of a wire adds exactly the points of the rest of the path. |
| Wires.WireIsPath | src/day3.rs:126-137 | `wire` is exactly the set of points on the path, that is, the points lying on the segment of some move. |
| Wires.FirstIndex | src/day3.rs:139-153 | This is the index of the first occurrence of a point on a path. |
| Wires.FirstIndexUnique | src/day3.rs:139-153 | An index holding the point with no earlier occurrence is that first index. |
| Wires.RecordsInsert | src/day3.rs:24-36 | Inserting the next path point with its step count keeps the node set recording each point's first visit. |
| Wires.RecordsCollect | src/day3.rs:139-153 | Collecting consecutively numbered nodes extends the record of first visits to the longer path. |
| Wires.Wire2FromUnfold | src/day3.rs:144-151 | One move of `wire2` collects its nodes and continues from their last point, with the step count advanced by the move's length. |
| Wires.Wire2FromStep | src/day3.rs:144-151 | One move of `wire2` takes a record of the path so far to a record of the path through that move. |
| Wires.Wire2FromPath | src/day3.rs:139-153 | The rest of `wire2` completes a record of the first visits along the whole path. |
| Wires.Wire2FirstVisits | src/day3.rs:139-153 | `wire2` holds exactly the points of `wire`. Each point's step count is one more than the index of its first visit on the path, so it is no larger than any later visit's count. |
| Wires.ToCoordExamples | src/day3.rs:172-182 | R2, L2, U2 and D2 from the origin visit the points the unit test lists. |
| Wires.ParseExample | src/day3.rs:174 | "R2" parses to two steps right. |
| Wires.ParseMoveAcceptsNumerals | src/day3.rs:47 | "R+2" and "U007" parse to 2 and 7 steps: a plus sign and leading zeros are accepted. |
| Wires.ParseMoveRejects | src/day3.rs:38-47 | "L2a" and "D-" are the `unwrap` failure, and "X2" is the unreachable branch. |
| Wires.NodesSetExample | src/day3.rs:184-199 | Inserting a second node at the same point keeps one node, the first one with 0 steps. |
| Password.Digits | src/day4.rs:16 | The digits are non-empty and each below 10. There is no leading zero unless the number is 0. |
| Password.FromDigitsDigits | src/day4.rs:16 | Reading the digits back gives the number. |
| Password.NonDecreasingExtend | src/day4.rs:15-24 | Appending a digit no smaller than the last keeps the digits non-decreasing. |
| Password.CheckNotDecreasing | src/day4.rs:15-24 | True exactly when every digit is at most every later digit. |
| Password.CheckTwoAdjacent | src/day4.rs:26-35 | True exactly when two consecutive digits are equal. |
| Password.Tally | src/day4.rs:38-41 | The tally holds, for each value 0-9, the number of digits equal to it. |
| Password.CheckAtMostTwoAdjacent | src/day4.rs:37-44 | True exactly when some digit value occurs exactly twice in the number. |
| Password.TwoPositions | src/day4.rs:37-44 | A value occurring at least twice occurs at two distinct positions. |
| Password.ExactPairIsDouble | src/day4.rs:8-13 | In non-decreasing digits, a value occurring exactly twice forms two equal adjacent digits. |
| Password.CountIn | src/day4.rs:1-6 | An inclusive range counts at most its length, and an empty range counts nothing. |
| Password.CountInMonotone | src/day4.rs:1-13 | A weaker filter counts at least as many numbers of the range. |
| Password.Valid2IsValid1 | src/day4.rs:1-13 | Every number part two accepts, part one accepts. |
| Password.Solve1 | src/day4.rs:1-6 | Part one counts exactly the numbers of the inclusive range with non-decreasing digits and two equal adjacent digits. |
| Password.Solve2 | src/day4.rs:8-13 | Part two counts exactly the numbers of the range with non-decreasing digits and a digit value occurring exactly twice. |
| Password.Solve2AtMostSolve1 | src/day4.rs:1-13 | Part two never counts more than part one. |
| Password.SixDigits | src/day4.rs:16 | A six-digit number's digits are its six decimal places. |
| Password.AdjacentOrdered | src/day4.rs:17-21 | Checking each neighbouring pair is enough for the digits to be non-decreasing. |
| Password.NonDecreasing111111 | src/day4.rs:51 | 111111 has non-decreasing digits. |
| Password.NotNonDecreasing223450 | src/day4.rs:52 | 223450 does not. |
| Password.NonDecreasing122345 | src/day4.rs:53 | 122345 does. |
| Password.NotNonDecreasing123234 | src/day4.rs:54 | 123234 does not. |
| Password.NonDecreasing123789 | src/day4.rs:55 | 123789 does. |
| Password.NotNonDecreasing135676 | src/day4.rs:56 | 135676 does not. |
| Password.HasDouble122345 | src/day4.rs:61 | 122345 has two equal adjacent digits. |
| Password.HasDouble123455 | src/day4.rs:62 | 123455 has two equal adjacent digits. |
| Password.NoDouble123456 | src/day4.rs:63 | 123456 has none. |
| Password.NoDouble124589 | src/day4.rs:64 | 124589 has none. |
| Password.HasExactPair122345 | src/day4.rs:69 | In 122345 some digit occurs exactly twice. |
| Password.HasExactPair111122 | src/day4.rs:70 | In 111122 some digit occurs exactly twice. |
| Password.NoExactPair111123 | src/day4.rs:71 | In 111123 none does. |
| Password.NoExactPair123444 | src/day4.rs:72 | In 123444 none does. |
| Orbits.Push | src/day6.rs:41-42 | The entry for the key gets the value appended, starting empty if absent. Every other entry is unchanged. |
| Orbits.ParseForward | src/day6.rs:32-45 | The forward graph has an entry exactly for each orbited body. The entry lists the bodies orbiting it, in input order. |
| Orbits.ParseBoth | src/day6.rs:47-63 | The undirected graph has an entry exactly for each body on some line. The entry lists its neighbours in input order, the orbited body before the orbiting one on each line. |
| Orbits.PushBothStep | src/day6.rs:51-61 | One line of `parse_input2` extends the graph of the earlier lines to the graph of the lines up to it. |
| Orbits.PushBothAt | src/day6.rs:56-60 | The same, body by body. |
| Orbits.TargetsOfStranger | src/day6.rs:41-42 | A body that orbits nothing has no forward edges. |
| Orbits.NeighboursOfStranger | src/day6.rs:56-60 | A body on no line has no neighbours. |
| Orbits.NeighboursSymmetric | src/day6.rs:56-60 | The undirected graph is symmetric. |
| Orbits.TargetsAreNeighbours | src/day6.rs:32-63 | Every forward edge is also an undirected edge. |
| Orbits.CalcWeight | src/day6.rs:18-30 | A body with no entry weighs its depth (the `None` case). Otherwise the weight is at least the depth. |
| Orbits.SumWeights | src/day6.rs:21-24 | The children's weights at depth d sum to at least d per child. |
| Orbits.Size | src/day6.rs:18-30 | Every tree counts at least its root. |
| Orbits.SumSizes | src/day6.rs:21-24 | A list of trees counts at least one body per tree. |
| Orbits.WeightShift | src/day6.rs:18-30 | Starting d levels deeper adds d times the tree's size to the weight: every body's depth grows by d. |
| Orbits.SumWeightsShift | src/day6.rs:21-24 | The same for a list of children. |
| Orbits.ExampleRanked | src/day6.rs:89-102 | The example orbit map is acyclic, with the given ranks as witness. |
| Orbits.ExampleWeight | src/day6.rs:89-102 | The example orbit map has 42 direct and indirect orbits, as the unit test expects. |
| Orbits.ExampleShapeWeight | src/day6.rs:89-102 | Any acyclic map with the example's entries weighs 42 from COM. |
| Orbits.Enqueue | src/day6.rs:76-80 | Exactly the unvisited children are queued, each one step further. |
| Orbits.EnqueueOne | src/day6.rs:76-80 | A single child is queued one step further unless it was visited. |
| Orbits.EnqueueAppend | src/day6.rs:76-80 | The children are queued in their order: the entries for a + b are those for a followed by those for b. |
| Orbits.Bfs | src/day6.rs:65-83 | A search from the target itself underflows `steps - 2` at 0 steps. A start with no entry fails on the `expect`. |
| Orbits.ExtendWalk | src/day6.rs:76-80 | A walk extended along an edge is one step longer. |
| Orbits.SearchFoundIsWalk | src/day6.rs:69-80 | If every queue entry is reached by a walk of its step count, a found target is reached by a walk of the returned length. |
| Orbits.SearchFoundStep | src/day6.rs:69-80 | A search that finds the target either has it at the front of the queue or finds it after one dequeue. |
| Orbits.QueueSoundStep | src/day6.rs:69-80 | Dequeuing a body and enqueuing neighbours one step further keeps every entry reached by a walk of its step count. |
| Orbits.FrontierStep | src/day6.rs:69-80 | One dequeue of a non-target body keeps three facts: the start is visited or queued, the target is unvisited, and every visited body's neighbours are visited or queued. |
| Orbits.SearchExhaustedIsClosed | src/day6.rs:69-82 | An exhausted search leaves a set holding the start, not the target, and closed under edges. |
| Orbits.NoWalkOut | src/day6.rs:82 | Such a set leaves the target unreachable. |
| Orbits.BfsSound | src/day6.rs:65-83 | A successful answer r means one of two things. Either some walk of r + 2 steps leads from `from` to `to`, or r is 0 and `to` is unreachable. |
| Amplifiers.Finish | src/day7.rs:63-69 | A run maps to the amplifier outcome: finished gives the machine, a crash gives its fault, and running out of fuel gives OutOfFuel. |
| Amplifiers.RunStep | src/day7.rs:63-69 | A stage runs a fresh interpreter with the phase and then the signal queued. It succeeds exactly when the run finishes with some output, and returns the last output. A run with no output is the `expect` failure. |
| Amplifiers.ChainAppend | src/day7.rs:32-38 | Chaining over a + b chains over a, then over b from the signal a produced. |
| Amplifiers.RunForPermutation | src/day7.rs:32-38 | The loop is the stage-by-stage chain from signal 0. No phases give 0, and one phase gives that single stage. |
| Amplifiers.InitAmplifiers | src/day7.rs:41-48 | One interpreter per phase, each over the program, suspending on output, with its phase as its only input. |
| Amplifiers.Slot | src/day7.rs:51-52 | Iteration k drives one of five interpreters. |
| Amplifiers.FinishedRunOutput | src/day7.rs:53-55 | A finished run keeps the configuration and the pending output. In suspend-on-output mode it adds at most one value. |
| Amplifiers.Round | src/day7.rs:51-59 | A missing interpreter is an index failure. Otherwise the round succeeds exactly when the resumed run finishes, and fails with that run's fault or fuel failure. It changes only the driven interpreter, which becomes the run's final machine with its newest output popped; that output is the signal, and there is none when the run left no output. From quiet interpreters it keeps them quiet, and the signal is the one value the run produced. |
| Amplifiers.RunLoopForPermutation | src/day7.rs:40-61 | With no phases, the first iteration indexes a missing interpreter. |
| Amplifiers.InitQuiet | src/day7.rs:41-48 | The initial interpreters are quiet: they suspend on output and hold no output. |
| Amplifiers.IterateStopsAtFirstSilence | src/day7.rs:51-60 | The loop returns v exactly when some iteration within the bound is the first to yield no output and was given v. |
| Amplifiers.SilentFirstOnly | src/day7.rs:55-57 | If the first iteration fails or is silent, no later one is the first silent one. |
| Amplifiers.SilentLater | src/day7.rs:55-57 | If the first iteration yields a signal, the first silent one is found among the rest. |
| Amplifiers.AfterNoneAfterSilence | src/day7.rs:57 | Past a failed or silent iteration there is no further state. |
| Amplifiers.IterateRoundsMonotone | src/day7.rs:51-60 | Allowing more iterations does not change a loop that has already stopped. |
| Amplifiers.FeedbackRoundsMonotone | src/day7.rs:51-60 | The same for the amplifiers' loop. |
| Amplifiers.RoundsKeepQuiet | src/day7.rs:53-56 | The amplifiers' round keeps quiet interpreters quiet and keeps their number. |
| Amplifiers.AfterKeepsQuietFor | src/day7.rs:51-59 | Any round that keeps interpreters quiet keeps them quiet through any number of iterations. |
| Amplifiers.AfterKeepsQuiet | src/day7.rs:51-59 | Throughout the amplifier loop every interpreter suspends on output and holds no pending output. |
| Amplifiers.FeedbackStopsAtFirstSilence | src/day7.rs:51-60 | The amplifier loop returns v exactly when, within the bound, some interpreter is the first to yield nothing and was given v. |
| SpaceImage.LineDigits | src/day8.rs:50 | A line converts exactly when every character is a decimal digit, and then each digit is its character's value. A failure names a non-digit character. |
| SpaceImage.StreamDigits | src/day8.rs:47-51 | The stream converts exactly when every line does. It then has one digit per character of the lines joined in order, each the value of its character. |
| SpaceImage.Chunks | src/day8.rs:54 | The chunks concatenate back to the stream. They are non-empty and at most the size, and all but the last are full. |
| SpaceImage.ChunksOfConcat | src/day8.rs:54-58 | Cutting the concatenation of such pieces gives the pieces back. |
| SpaceImage.ParseLayers | src/day8.rs:45-60 | Layers exist exactly when the digits convert. They concatenate to the digit stream, hold 1 to 150 pixels, and all but the last are full. |
| SpaceImage.CountByDigit | src/day8.rs:62-64 | The count is the multiplicity of the digit in the layer. |
| SpaceImage.Checksum | src/day8.rs:9-13 | It fails exactly when there are no layers, and then with the `unwrap` failure. Otherwise it succeeds, and the result is the ones times the twos of the first layer with the fewest zeros. |
| SpaceImage.VisibleSnoc | src/day8.rs:22-28 | A layer added at the back shows only where the front layers are transparent. |
| SpaceImage.Overlay | src/day8.rs:23-27 | One layer fills exactly the still-transparent pixels it covers with its values. |
| SpaceImage.Composite | src/day8.rs:18-28 | Each pixel of the 25 by 6 image is the first non-transparent value at that pixel, front layer first, or transparent if there is none. |
| SpaceImage.VisibleIsFirstOpaque | src/day8.rs:22-28 | A pixel opaque on some layer shows the value of the first such layer. |
| SpaceImage.VisibleAllTransparent | src/day8.rs:22-28 | A pixel transparent on every layer stays transparent. |
| SpaceImage.VisibleExample | src/day8.rs:22-28 | 0 over 1 shows 0, 2 over 1 shows 1, and 2 over 2 shows 2. |

## Left out

- `src/day5.rs` is not part of this model. It only reads a file, queues one input, runs the interpreter and prints.
- The `solve` entry points are not modelled, because they only read input files, split text and print. This covers file reading, line splitting, `println!` output and the day 8 block-character rendering. Parsing is modelled from already split lines (day 3 moves, day 6 orbits, day 8 lines of characters).
- Day 2 `solve2` and day 3 `solve1`/`solve2` are left out. The first is a search for a noun and verb; the other two take minimums over set intersections of two input wires. They reduce to the modelled operations plus a minimum.
- The `permutohedron` enumeration of phase settings is left out as an external library. `RunForPermutation` and `RunLoopForPermutation` take one phase sequence.
- The feedback-loop unit test programs of day 7 (`src/day7.rs:84-104`) are left out. They run for hundreds of steps, beyond what the verifier evaluates.
- Machine integers are unbounded. The `i32`/`i64` overflow of additions and multiplications is not modelled (Rust's release builds wrap, debug builds panic). The `usize` conversions of `as usize` are modelled as "negative is out of range". A wrapped negative value is at least 2^63, which is beyond any memory.
- Computer.Loop: bounded by `fuel`. A program that never halts ends in `OutOfFuel` instead of looping forever.
- Amplifiers.RunLoopForPermutation: the feedback loop is bounded by a number of rounds, and each resumed interpreter by `fuel`. The Rust loop is unbounded.
- Orbits.Bfs: bounded by `fuel` dequeues. BfsSound proves the answer comes from a walk of that length, or that the target is unreachable. It does not prove the walk is the shortest.
- Orbits.Bfs: `steps - 2` on `u64` below 2 is modelled as the `Underflow` failure, as in debug builds. Release builds would wrap instead.
- Orbits.CalcWeight: requires a rank map witnessing that no entry of the forward graph lies on a cycle. The Rust recursion only fails to end when a cycle is reachable from the starting body, so this asks for more than Rust needs.
- SpaceImage.Composite: requires every layer to have at most 150 pixels, which is what `parse_input` produces. A longer layer would index past the image in Rust.
- SpaceImage.Checksum: the `u64` counts and their product are unbounded naturals.
- The HashMap and HashSet internals (hashing, iteration order) are left out. Maps and sets are Dafny's mathematical maps and sets, and a set of day 3 nodes compared by point is a map from point to step count.

=== FILE: computer.dfy ===
/** The Intcode interpreter: decoding of instruction words into a closed
    `Instruction` type, the effect of one instruction on a machine, and the
    run loop with its optional suspend-on-output mode. */
module Computer {
  import opened Results
  import RustInt

  /** A resolved operand: mode 0 names a memory address, mode 1 carries a literal. */
  datatype Param = Position(address: int) | Value(literal: int)

  datatype Instruction =
    | Add(x: Param, y: Param, dst: Param)
    | Mul(x: Param, y: Param, dst: Param)
    | Inp(dst: Param)
    | Out(x: Param)
    | JumpTrue(x: Param, target: Param)
    | JumpFalse(x: Param, target: Param)
    | LessThan(x: Param, y: Param, dst: Param)
    | Equals(x: Param, y: Param, dst: Param)
    | Halt

  /** Why a run stops abnormally; every fault names the pointer of the
      instruction that raised it. */
  datatype Fault =
    | Decode(pointer: int, word: int)
    | OutOfBounds(address: int, pointer: int)
    | StarvedInput(pointer: int)

  /** The interpreter state. `halted` is the loop flag of the run loop, and
      `haltOnOutput` the suspend-on-output configuration. */
  datatype Machine = Machine(
    memory: seq<int>,
    input: seq<int>,
    output: seq<int>,
    pointer: int,
    halted: bool,
    haltOnOutput: bool)

  /** Outcome of a fuel-bounded run. */
  datatype RunResult = Finished(machine: Machine) | Crashed(fault: Fault) | OutOfFuel

  predicate InBounds(memory: seq<int>, address: int) {
    0 <= address < |memory|
  }

  // ---------------------------------------------------------------- operands

  /** Builds an operand from its word and mode digit; any mode other than 0
      and 1 has no operand. */
  function ParamFrom(word: int, mode: int): (r: Option<Param>)
    ensures r.Some? <==> mode == 0 || mode == 1
    ensures r.Some? ==> EvaluateWrite(r.value) == word
    ensures r.Some? ==> (r.value.Value? <==> mode == 1)
  {
    if mode == 0 then Some(Position(word))
    else if mode == 1 then Some(Value(word))
    else None
  }

  /** Write-evaluation: the raw operand word, whatever the mode, so an
      immediate destination names the address its literal holds. */
  function EvaluateWrite(p: Param): (r: int)
    ensures p.Position? ==> r == p.address
    ensures p.Value? ==> r == p.literal
  {
    match p
    case Position(a) => a
    case Value(v) => v
  }

  /** A parameter can be read when it is immediate or addresses memory. */
  predicate Readable(memory: seq<int>, p: Param) {
    p.Position? ==> InBounds(memory, p.address)
  }

  /** Read-evaluation: a positional operand dereferences memory, an immediate
      one is its literal; an address outside memory is a fault. */
  function EvaluateRead(memory: seq<int>, p: Param, pointer: int): (r: Result<int, Fault>)
    ensures r.Success? <==> Readable(memory, p)
    ensures p.Value? ==> r == Success(p.literal)
    ensures p.Position? && r.Success? ==> r.value == memory[p.address]
    ensures r.Failure? ==> r.error == OutOfBounds(p.address, pointer)
  {
    match p
    case Value(v) => Success(v)
    case Position(a) => if InBounds(memory, a) then Success(memory[a]) else Failure(OutOfBounds(a, pointer))
  }

  /** The value a readable parameter yields. */
  function ReadValue(memory: seq<int>, p: Param): int
    requires Readable(memory, p)
  {
    EvaluateRead(memory, p, 0).value
  }

  // ---------------------------------------------------------------- decoding

  /** Splits an instruction word into its opcode and three mode digits, with
      Rust's truncating `/` and `%`; the third mode keeps every remaining digit.
      The four fields recompose the word, negative words included; for a
      non-negative word they are digits, for a negative one none is positive. */
  function ParseOpcode(raw: int): (r: (int, int, int, int))
    ensures raw == r.0 + 100 * r.1 + 1000 * r.2 + 10000 * r.3
    ensures raw >= 0 ==> 0 <= r.0 < 100 && 0 <= r.1 < 10 && 0 <= r.2 < 10 && r.3 >= 0
    ensures raw < 0 ==> -100 < r.0 <= 0 && -10 < r.1 <= 0 && -10 < r.2 <= 0 && r.3 <= 0
  {
    var opcode := RustInt.Rem(raw, 100);
    var params := RustInt.Quot(raw, 100);
    RustInt.QuotTwice(params);
    (opcode, RustInt.Rem(params, 10), RustInt.Rem(RustInt.Quot(params, 10), 10), RustInt.Quot(params, 100))
  }

  /** Number of words an instruction advances the pointer by when it does not
      jump: the instruction word and its operands, except that Halt has width
      0 and leaves the pointer on its own word. */
  function Width(i: Instruction): (w: nat)
    ensures i.Halt? <==> w == 0
    ensures !i.Halt? ==> w == Arity(i) + 1
  {
    match i
    case Add(_, _, _) => 4
    case Mul(_, _, _) => 4
    case Inp(_) => 2
    case Out(_) => 2
    case LessThan(_, _, _) => 4
    case Equals(_, _, _) => 4
    case JumpTrue(_, _) => 3
    case JumpFalse(_, _) => 3
    case Halt => 0
  }

  /** Number of operand words following the instruction word. */
  function Arity(i: Instruction): nat {
    match i
    case Add(_, _, _) => 3
    case Mul(_, _, _) => 3
    case Inp(_) => 1
    case Out(_) => 1
    case LessThan(_, _, _) => 3
    case Equals(_, _, _) => 3
    case JumpTrue(_, _) => 2
    case JumpFalse(_, _) => 2
    case Halt => 0
  }

  function OpcodeOf(i: Instruction): int {
    match i
    case Add(_, _, _) => 1
    case Mul(_, _, _) => 2
    case Inp(_) => 3
    case Out(_) => 4
    case JumpTrue(_, _) => 5
    case JumpFalse(_, _) => 6
    case LessThan(_, _, _) => 7
    case Equals(_, _, _) => 8
    case Halt => 99
  }

  predicate KnownOpcode(op: int) {
    (1 <= op <= 8) || op == 99
  }

  /** A memory word read during decoding; outside memory it is a fault. */
  function Fetch(memory: seq<int>, address: int, pointer: int): Result<int, Fault> {
    if InBounds(memory, address) then Success(memory[address]) else Failure(OutOfBounds(address, pointer))
  }

  /** The mode digit each operand of `opcode` is resolved with. Add and Mul
      resolve their destination with the second digit, LessThan and Equals
      with the third. */
  function ModesFor(opcode: int, t1: int, t2: int, t3: int): seq<int>
    requires KnownOpcode(opcode)
  {
    if opcode == 1 || opcode == 2 then [t1, t2, t2]
    else if opcode == 3 || opcode == 4 then [t1]
    else if opcode == 5 || opcode == 6 then [t1, t2]
    else if opcode == 7 || opcode == 8 then [t1, t2, t3]
    else []
  }

  /** The `k`-th operand (counting from 1) of the instruction at `pointer`. */
  function Operand(memory: seq<int>, pointer: int, k: nat, mode: int, raw: int): Result<Param, Fault> {
    var word :- Fetch(memory, pointer + k, pointer);
    match ParamFrom(word, mode)
    case Some(p) => Success(p)
    case None => Failure(Decode(pointer, raw))
  }

  /** Resolves operands `k + 1 ..` in order; the first fault wins. */
  function Operands(memory: seq<int>, pointer: int, raw: int, modes: seq<int>, k: nat): (r: Result<seq<Param>, Fault>)
    requires k <= |modes|
    ensures r.Success? ==> |r.value| == |modes| - k
    ensures r.Success? && k < |modes| ==> InBounds(memory, pointer + |modes|)
    ensures r.Failure? ==> r.error.pointer == pointer
    ensures InBounds(memory, pointer) && InBounds(memory, pointer + |modes|) ==>
              && (r.Success? <==> ModesSupported(modes[k..]))
              && (r.Failure? ==> r.error == Decode(pointer, raw))
    ensures InBounds(memory, pointer + k) && !InBounds(memory, pointer + |modes|) && ModesSupported(modes[k..]) ==>
              r == Failure(OutOfBounds(|memory|, pointer))
    decreases |modes| - k
  {
    if k == |modes| then Success([])
    else
      assert ModesSupported(modes[k..]) ==> ModesSupported(modes[k + 1..]) && (modes[k] == 0 || modes[k] == 1) by {
        if ModesSupported(modes[k..]) {
          assert modes[k..][0] == modes[k];
          assert modes[k + 1..] == modes[k..][1..];
        }
      }
      var p :- Operand(memory, pointer, k + 1, modes[k], raw);
      var rest :- Operands(memory, pointer, raw, modes, k + 1);
      Success([p] + rest)
  }

  /** The instruction an opcode denotes, over its resolved operands. */
  function Assemble(opcode: int, ps: seq<Param>): Instruction
    requires KnownOpcode(opcode) && |ps| == |ModesFor(opcode, 0, 0, 0)|
  {
    if opcode == 1 then Add(ps[0], ps[1], ps[2])
    else if opcode == 2 then Mul(ps[0], ps[1], ps[2])
    else if opcode == 3 then Inp(ps[0])
    else if opcode == 4 then Out(ps[0])
    else if opcode == 5 then JumpTrue(ps[0], ps[1])
    else if opcode == 6 then JumpFalse(ps[0], ps[1])
    else if opcode == 7 then LessThan(ps[0], ps[1], ps[2])
    else if opcode == 8 then Equals(ps[0], ps[1], ps[2])
    else Halt
  }

  /** Decodes the instruction at `pointer`: the word there gives the opcode
      and mode digits, and the following words the operands. */
  function DecodeAt(memory: seq<int>, pointer: int): (r: Result<Instruction, Fault>)
    ensures !InBounds(memory, pointer) ==> r == Failure(OutOfBounds(pointer, pointer))
    ensures InBounds(memory, pointer) && !KnownOpcode(ParseOpcode(memory[pointer]).0) ==>
              r == Failure(Decode(pointer, memory[pointer]))
    ensures r.Success? ==> InBounds(memory, pointer + Arity(r.value))
    ensures r.Success? ==> OpcodeOf(r.value) == ParseOpcode(memory[pointer]).0
    ensures r.Failure? ==> r.error.pointer == pointer
    ensures InBounds(memory, pointer) && KnownOpcode(ParseOpcode(memory[pointer]).0)
            && InBounds(memory, pointer + |WordModes(memory[pointer])|) ==>
              && (r.Success? <==> ModesSupported(WordModes(memory[pointer])))
              && (r.Failure? ==> r == Failure(Decode(pointer, memory[pointer])))
    ensures InBounds(memory, pointer) && KnownOpcode(ParseOpcode(memory[pointer]).0)
            && ModesSupported(WordModes(memory[pointer])) && !InBounds(memory, pointer + |WordModes(memory[pointer])|) ==>
              r == Failure(OutOfBounds(|memory|, pointer))
  {
    var raw :- Fetch(memory, pointer, pointer);
    var (opcode, t1, t2, t3) := ParseOpcode(raw);
    if !KnownOpcode(opcode) then Failure(Decode(pointer, raw))
    else
      var modes := ModesFor(opcode, t1, t2, t3);
      assert modes == WordModes(raw) && modes[0..] == modes;
      var ps :- Operands(memory, pointer, raw, modes, 0);
      Success(Assemble(opcode, ps))
  }

  /** The mode digits the operands of a word with a known opcode are
      resolved with. */
  function WordModes(raw: int): seq<int>
    requires KnownOpcode(ParseOpcode(raw).0)
  {
    var (opcode, t1, t2, t3) := ParseOpcode(raw);
    ModesFor(opcode, t1, t2, t3)
  }

  /** Every mode is 0 or 1. */
  predicate ModesSupported(modes: seq<int>) {
    forall j :: 0 <= j < |modes| ==> modes[j] == 0 || modes[j] == 1
  }

  // ---------------------------------------------------------------- execution

  predicate IsBinary(i: Instruction) {
    i.Add? || i.Mul? || i.LessThan? || i.Equals?
  }

  predicate IsJump(i: Instruction) {
    i.JumpTrue? || i.JumpFalse?
  }

  /** Whether a jump with condition value `c` is taken. */
  predicate Taken(i: Instruction, c: int)
    requires IsJump(i)
  {
    if i.JumpTrue? then c != 0 else c == 0
  }

  /** `after` differs from `before` at most in the single cell `address`,
      which lies inside memory. */
  predicate WritesOnly(before: seq<int>, after: seq<int>, address: int) {
    && |after| == |before|
    && InBounds(before, address)
    && forall k :: 0 <= k < |before| && k != address ==> after[k] == before[k]
  }

  /** Overwrites one cell; a destination outside memory is a fault. */
  function Store(memory: seq<int>, address: int, v: int, pointer: int): Result<seq<int>, Fault> {
    if InBounds(memory, address) then Success(memory[address := v]) else Failure(OutOfBounds(address, pointer))
  }

  /** Value stored by a binary instruction whose operands read `a` and `b`. */
  function Combine(i: Instruction, a: int, b: int): int
    requires IsBinary(i)
  {
    match i
    case Add(_, _, _) => a + b
    case Mul(_, _, _) => a * b
    case LessThan(_, _, _) => if a < b then 1 else 0
    case Equals(_, _, _) => if a == b then 1 else 0
  }

  /** Add, Mul, LessThan and Equals: both sources are read before the
      destination is checked, and exactly the destination cell is written. */
  function ExecuteBinary(m: Machine, i: Instruction): (r: Result<Machine, Fault>)
    requires IsBinary(i)
    ensures r.Success? <==> Readable(m.memory, i.x) && Readable(m.memory, i.y) && InBounds(m.memory, EvaluateWrite(i.dst))
    ensures r.Success? ==>
              var a, b, d := ReadValue(m.memory, i.x), ReadValue(m.memory, i.y), EvaluateWrite(i.dst);
              && WritesOnly(m.memory, r.value.memory, d)
              && (i.Add? ==> r.value.memory[d] == a + b)
              && (i.Mul? ==> r.value.memory[d] == a * b)
              && (i.LessThan? ==> r.value.memory[d] == (if a < b then 1 else 0))
              && (i.Equals? ==> r.value.memory[d] == (if a == b then 1 else 0))
              && r.value == m.(memory := r.value.memory, pointer := m.pointer + 4)
    ensures r.Failure? ==> r.error.OutOfBounds? && r.error.pointer == m.pointer
  {
    var a :- EvaluateRead(m.memory, i.x, m.pointer);
    var b :- EvaluateRead(m.memory, i.y, m.pointer);
    var memory :- Store(m.memory, EvaluateWrite(i.dst), Combine(i, a, b), m.pointer);
    Success(m.(memory := memory, pointer := m.pointer + Width(i)))
  }

  /** Inp: pops the head of the input queue first, then stores it at the
      destination. An empty queue starves the machine. */
  function ExecuteInput(m: Machine, i: Instruction): (r: Result<Machine, Fault>)
    requires i.Inp?
    ensures r.Success? <==> |m.input| > 0 && InBounds(m.memory, EvaluateWrite(i.dst))
    ensures |m.input| == 0 ==> r == Failure(StarvedInput(m.pointer))
    ensures |m.input| > 0 && r.Failure? ==> r == Failure(OutOfBounds(EvaluateWrite(i.dst), m.pointer))
    ensures r.Success? ==>
              && WritesOnly(m.memory, r.value.memory, EvaluateWrite(i.dst))
              && r.value.memory[EvaluateWrite(i.dst)] == m.input[0]
              && [m.input[0]] + r.value.input == m.input
              && r.value == m.(memory := r.value.memory, input := r.value.input, pointer := m.pointer + 2)
  {
    if |m.input| == 0 then Failure(StarvedInput(m.pointer))
    else
      var v := m.input[0];
      var memory :- Store(m.memory, EvaluateWrite(i.dst), v, m.pointer);
      Success(m.(memory := memory, input := m.input[1..], pointer := m.pointer + Width(i)))
  }

  /** Out: appends the read value to the output queue; in suspend-on-output
      mode it also raises the loop flag. */
  function ExecuteOutput(m: Machine, i: Instruction): (r: Result<Machine, Fault>)
    requires i.Out?
    ensures r.Success? <==> Readable(m.memory, i.x)
    ensures r.Success? ==>
              && r.value.memory == m.memory && r.value.input == m.input
              && r.value.output == m.output + [ReadValue(m.memory, i.x)]
              && r.value.pointer == m.pointer + 2
              && r.value.halted == (m.halted || m.haltOnOutput)
              && r.value.haltOnOutput == m.haltOnOutput
    ensures r.Failure? ==> r.error.OutOfBounds? && r.error.pointer == m.pointer
  {
    var v :- EvaluateRead(m.memory, i.x, m.pointer);
    Success(m.(output := m.output + [v], pointer := m.pointer + Width(i),
               halted := if m.haltOnOutput then true else m.halted))
  }

  /** JumpTrue and JumpFalse: a taken jump sets the pointer to the read
      target, which is only checked against memory at the next fetch. */
  function ExecuteJump(m: Machine, i: Instruction): (r: Result<Machine, Fault>)
    requires IsJump(i)
    ensures r.Success? <==>
              Readable(m.memory, i.x) && (Taken(i, ReadValue(m.memory, i.x)) ==> Readable(m.memory, i.target))
    ensures r.Success? ==>
              r.value == m.(pointer := if Taken(i, ReadValue(m.memory, i.x)) then ReadValue(m.memory, i.target)
                                       else m.pointer + 3)
    ensures r.Failure? ==> r.error.OutOfBounds? && r.error.pointer == m.pointer
  {
    var c :- EvaluateRead(m.memory, i.x, m.pointer);
    if Taken(i, c) then
      var t :- EvaluateRead(m.memory, i.target, m.pointer);
      Success(m.(pointer := t))
    else
      Success(m.(pointer := m.pointer + Width(i)))
  }

  /** Applies one decoded instruction located at `m.pointer` and computes the
      next pointer. Halt raises the flag and, having width 0, leaves the
      pointer on the halt word. */
  function Execute(m: Machine, i: Instruction): (r: Result<Machine, Fault>)
    ensures i.Halt? ==> r == Success(m.(halted := true))
    ensures r.Success? && !IsJump(i) ==> r.value.pointer == m.pointer + Width(i)
    ensures r.Success? && !i.Inp? && !i.Out? ==> r.value.input == m.input && r.value.output == m.output
    ensures r.Success? && !IsBinary(i) && !i.Inp? ==> r.value.memory == m.memory
    ensures r.Success? ==> r.value.haltOnOutput == m.haltOnOutput && |r.value.memory| == |m.memory|
    ensures r.Failure? ==> r.error.pointer == m.pointer
  {
    match i
    case Inp(_) => ExecuteInput(m, i)
    case Out(_) => ExecuteOutput(m, i)
    case JumpTrue(_, _) => ExecuteJump(m, i)
    case JumpFalse(_, _) => ExecuteJump(m, i)
    case Halt => Success(m.(halted := true, pointer := m.pointer + Width(i)))
    case _ => ExecuteBinary(m, i)
  }

  /** One turn of the run loop: nothing happens once the flag is set. */
  function Step(m: Machine): (r: Result<Machine, Fault>)
    ensures m.halted ==> r == Success(m)
    ensures r.Success? ==>
              && |r.value.memory| == |m.memory|
              && r.value.haltOnOutput == m.haltOnOutput
              && (r.value.output == m.output || (!m.halted && |r.value.output| == |m.output| + 1 && r.value.output == m.output + [r.value.output[|m.output|]]))
              && (r.value.input == m.input || (!m.halted && |m.input| > 0 && [m.input[0]] + r.value.input == m.input))
              && (m.haltOnOutput && r.value.output != m.output ==> r.value.halted)
    ensures r.Failure? ==> !m.halted && r.error.pointer == m.pointer
  {
    if m.halted then Success(m)
    else
      var i :- DecodeAt(m.memory, m.pointer);
      Execute(m, i)
  }

  /** The run loop over a step function: steps until the flag is set, then
      clears it. `fuel` bounds the number of steps; a fault ends the run. */
  function Loop(step: Machine -> Result<Machine, Fault>, m: Machine, fuel: nat): (r: RunResult)
    ensures r.Finished? ==> !r.machine.halted
    ensures m.halted ==> r == Finished(m.(halted := false))
    decreases fuel
  {
    if m.halted then Finished(m.(halted := false))
    else if fuel == 0 then OutOfFuel
    else
      match step(m)
      case Failure(f) => Crashed(f)
      case Success(next) => Loop(step, next, fuel - 1)
  }

  /** `execute_program`: the run loop of the interpreter. A running machine
      takes one step and carries on from its result; a fault ends the run,
      and the run ends with the flag cleared once it is set. */
  function Run(m: Machine, fuel: nat): (r: RunResult)
    ensures m.halted ==> r == Finished(m.(halted := false))
    ensures !m.halted && fuel == 0 ==> r == OutOfFuel
    ensures r.Finished? ==> !r.machine.halted
    decreases fuel
  {
    Loop(Step, m, fuel)
  }

  /** A running machine with fuel left takes one step: a fault ends the
      run, otherwise the run carries on from the new state with one unit
      less. */
  lemma RunTakesStep(m: Machine, fuel: nat)
    requires !m.halted && fuel > 0
    ensures Run(m, fuel) == match Step(m)
                            case Failure(f) => Crashed(f)
                            case Success(n) => Run(n, fuel - 1)
  {
  }

  // ---------------------------------------------------------------- interface

  /** A fresh machine over `program`, pointer at 0, queues empty. */
  function New(program: seq<int>): (m: Machine)
    ensures m.memory == program && m.pointer == 0
    ensures m.input == [] && m.output == []
    ensures !m.halted && !m.haltOnOutput
  {
    Machine(program, [], [], 0, false, false)
  }

  /** Enables suspend-on-output: every output ends the current run. */
  function WithHaltOnOutput(m: Machine): (r: Machine)
    ensures r.haltOnOutput
    ensures r == m.(haltOnOutput := true)
  {
    m.(haltOnOutput := true)
  }

  /** Appends one value to the tail of the input queue. */
  function AddInput(m: Machine, v: int): (r: Machine)
    ensures |r.input| == |m.input| + 1 && r.input[..|m.input|] == m.input && r.input[|m.input|] == v
    ensures r == m.(input := r.input)
  {
    m.(input := m.input + [v])
  }

  /** The accumulated output, read without draining it: every value still
      queued, oldest first, so the last one is the most recent output. */
  function GetOutput(m: Machine): (out: seq<int>)
    ensures |out| == |m.output|
    ensures forall k :: 0 <= k < |out| ==> out[k] == m.output[k]
  {
    m.output
  }
}

=== FILE: computer_lemmas.dfy ===
/** Properties of the Intcode interpreter that relate several calls: the
    arithmetic of instruction words, decoding against an encoder, and the
    behaviour of whole runs. */
module ComputerLemmas {
  import opened Results
  import RustInt
  import opened Computer

  // ---------------------------------------------------------------- instruction words

  /** For a non-negative word the fields are its low two digits, the next
      two single digits, and everything above them. */
  lemma ParseOpcodeDigits(w: int)
    requires w >= 0
    ensures ParseOpcode(w) == (w % 100, (w / 100) % 10, (w / 1000) % 10, w / 10000)
  {
    RustInt.NonNegativeAgree(w, 100);
    var params := w / 100;
    RustInt.NonNegativeAgree(params, 10);
    RustInt.NonNegativeAgree(params, 100);
    RustInt.NonNegativeAgree(params / 10, 10);
    DivDiv(w, 100, 10);
    DivDiv(w, 100, 100);
  }

  lemma DivDiv(w: int, a: int, b: int)
    requires w >= 0 && a > 0 && b > 0
    ensures (w / a) / b == w / (a * b)
  {
    var q := (w / a) / b;
    var r := (w / a) % b;
    assert w == a * (w / a) + w % a;
    assert w / a == b * q + r;
    assert w == (a * b) * q + (a * r + w % a) by {
      assert a * (b * q + r) == (a * b) * q + a * r;
    }
    assert a * r + w % a < a * b by {
      assert r <= b - 1;
      assert a * r <= a * (b - 1);
    }
    RustInt.DivUnique(w, a * b, q, a * r + w % a);
  }

  /** Composing a word from an opcode and three modes and splitting it again
      gives the parts back. */
  lemma ParseOpcodeOfComposed(op: int, m1: int, m2: int, m3: int)
    requires 0 <= op < 100 && 0 <= m1 < 10 && 0 <= m2 < 10 && m3 >= 0
    ensures ParseOpcode(op + 100 * m1 + 1000 * m2 + 10000 * m3) == (op, m1, m2, m3)
  {
    var w := op + 100 * m1 + 1000 * m2 + 10000 * m3;
    var params := m1 + 10 * m2 + 100 * m3;
    RustInt.QuotRemUnique(w, 100, params, op);
    RustInt.QuotRemUnique(params, 10, m2 + 10 * m3, m1);
    RustInt.QuotRemUnique(m2 + 10 * m3, 10, m3, m2);
    RustInt.QuotRemUnique(params, 100, m3, m1 + 10 * m2);
  }

  lemma ParseOpcodeExamples()
    ensures ParseOpcode(1002) == (2, 0, 1, 0)
    ensures ParseOpcode(1101) == (1, 1, 1, 0)
    ensures ParseOpcode(2) == (2, 0, 0, 0)
    ensures ParseOpcode(11002) == (2, 0, 1, 1)
  {
    ParseOpcodeOfComposed(2, 0, 1, 0);
    ParseOpcodeOfComposed(1, 1, 1, 0);
    ParseOpcodeOfComposed(2, 0, 0, 0);
    ParseOpcodeOfComposed(2, 0, 1, 1);
  }

  /** The words of the mode lemmas below. */
  lemma ParseOpcodeModeExamples()
    ensures ParseOpcode(201) == (1, 2, 0, 0)
    ensures ParseOpcode(100007) == (7, 0, 0, 10)
    ensures ParseOpcode(1104) == (4, 1, 1, 0)
  {
    ParseOpcodeOfComposed(1, 2, 0, 0);
    ParseOpcodeOfComposed(7, 0, 0, 10);
    ParseOpcodeOfComposed(4, 1, 1, 0);
  }

  /** A mode digit other than 0 or 1 on an operand the opcode uses is a
      decode fault: an add whose first mode digit is 2 (201, say) is one. */
  lemma DecodeUnsupportedMode(memory: seq<int>, pointer: int)
    requires InBounds(memory, pointer) && InBounds(memory, pointer + 3)
    requires ParseOpcode(memory[pointer]).0 == 1 && ParseOpcode(memory[pointer]).1 == 2
    ensures DecodeAt(memory, pointer) == Failure(Decode(pointer, memory[pointer]))
  {
    assert WordModes(memory[pointer])[0] == 2;
  }

  /** So is a digit above the third, which parsing does not reduce: a
      less-than with 10 as its destination mode (100007, say) is one. */
  lemma DecodeUnsupportedHighMode(memory: seq<int>, pointer: int)
    requires InBounds(memory, pointer) && InBounds(memory, pointer + 3)
    requires ParseOpcode(memory[pointer]).0 == 7 && ParseOpcode(memory[pointer]).3 == 10
    ensures DecodeAt(memory, pointer) == Failure(Decode(pointer, memory[pointer]))
  {
    assert WordModes(memory[pointer])[2] == 10;
  }

  /** A mode digit no operand uses is ignored: an output word whose first
      mode digit is 1 outputs its immediate operand, whatever the digits
      above it say (1104 as well as 104). */
  lemma DecodeIgnoresUnusedMode(memory: seq<int>, pointer: int)
    requires InBounds(memory, pointer) && InBounds(memory, pointer + 1)
    requires ParseOpcode(memory[pointer]).0 == 4 && ParseOpcode(memory[pointer]).1 == 1
    ensures DecodeAt(memory, pointer) == Success(Out(Value(memory[pointer + 1])))
  {
    var (op, t1, t2, t3) := ParseOpcode(memory[pointer]);
    var raw, modes := memory[pointer], ModesFor(4, 1, t2, t3);
    assert modes == [1];
    assert Operand(memory, pointer, 1, modes[0], raw) == Success(Value(memory[pointer + 1]));
    assert Operands(memory, pointer, raw, modes, 1) == Success([]);
    assert [Value(memory[pointer + 1])] + [] == [Value(memory[pointer + 1])];
    assert Operands(memory, pointer, raw, modes, 0) == Success([Value(memory[pointer + 1])]);
    DecodeAtOf(memory, pointer, 4, 1, t2, t3, [Value(memory[pointer + 1])]);
  }

  // ---------------------------------------------------------------- decoding against encoding

  function ModeOf(p: Param): int {
    if p.Position? then 0 else 1
  }

  /** The operands of an instruction, in the order of their words. */
  function OperandList(i: Instruction): (r: seq<Param>)
    ensures |r| == Arity(i)
  {
    match i
    case Add(x, y, d) => [x, y, d]
    case Mul(x, y, d) => [x, y, d]
    case Inp(d) => [d]
    case Out(x) => [x]
    case JumpTrue(x, t) => [x, t]
    case JumpFalse(x, t) => [x, t]
    case LessThan(x, y, d) => [x, y, d]
    case Equals(x, y, d) => [x, y, d]
    case Halt => []
  }

  /** The mode digit of operand `j`, or 0 when there is none. */
  function ModeDigit(ps: seq<Param>, j: nat): int {
    if j < |ps| then ModeOf(ps[j]) else 0
  }

  /** The words of an instruction: the opcode with one mode digit per
      operand, followed by the operand words. */
  function Encode(i: Instruction): (r: seq<int>)
    ensures |r| == Arity(i) + 1
  {
    var ps := OperandList(i);
    [OpcodeOf(i) + 100 * ModeDigit(ps, 0) + 1000 * ModeDigit(ps, 1) + 10000 * ModeDigit(ps, 2)]
      + seq(|ps|, j requires 0 <= j < |ps| => EvaluateWrite(ps[j]))
  }

  /** A parameter carrying the word of `p` in the mode of `like`. */
  function Retag(p: Param, like: Param): Param {
    if like.Position? then Position(EvaluateWrite(p)) else Value(EvaluateWrite(p))
  }

  /** What the decoder makes of an encoded instruction: Add and Mul take
      their destination's mode from the second operand. */
  function AsDecoded(i: Instruction): Instruction {
    match i
    case Add(x, y, d) => Add(x, y, Retag(d, y))
    case Mul(x, y, d) => Mul(x, y, Retag(d, y))
    case _ => i
  }

  /** An operand's word read back in its own mode gives the operand. */
  lemma ParamFromModeOf(p: Param)
    ensures ParamFrom(EvaluateWrite(p), ModeOf(p)) == Some(p)
  {
  }

  /** Operand word `j + 1` after `pointer` lies in memory and reads back as `ps[j]`. */
  predicate ReadsBack(memory: seq<int>, pointer: int, modes: seq<int>, ps: seq<Param>, j: nat)
    requires j < |modes| == |ps|
  {
    InBounds(memory, pointer + j + 1) && ParamFrom(memory[pointer + j + 1], modes[j]) == Some(ps[j])
  }

  /** The operand decoder yields `ps[k..]` when every operand word from `k`
      on lies in memory and reads back as the corresponding `ps[j]`. */
  lemma {:induction false} OperandsOf(memory: seq<int>, pointer: int, raw: int, modes: seq<int>, k: nat, ps: seq<Param>)
    requires k <= |modes| == |ps|
    requires forall j :: k <= j < |modes| ==> ReadsBack(memory, pointer, modes, ps, j)
    ensures Operands(memory, pointer, raw, modes, k) == Success(ps[k..])
    decreases |modes| - k
  {
    if k < |modes| {
      assert ReadsBack(memory, pointer, modes, ps, k);
      OperandsOf(memory, pointer, raw, modes, k + 1, ps);
      assert ps[k..] == [ps[k]] + ps[k + 1..];
    }
  }

  /** For each instruction, the decoder's mode table applied to the encoded
      mode digits gives the modes of the decoded operands, and assembling
      those operands gives the decoded instruction. */
  lemma DecoderTables(i: Instruction)
    ensures var ps := OperandList(i);
            var qs := OperandList(AsDecoded(i));
            var modes := ModesFor(OpcodeOf(i), ModeDigit(ps, 0), ModeDigit(ps, 1), ModeDigit(ps, 2));
            && KnownOpcode(OpcodeOf(i)) && |modes| == |qs| == |ps| == |ModesFor(OpcodeOf(i), 0, 0, 0)|
            && (forall j :: 0 <= j < |qs| ==> modes[j] == ModeOf(qs[j]) && EvaluateWrite(qs[j]) == EvaluateWrite(ps[j]))
            && Assemble(OpcodeOf(i), qs) == AsDecoded(i)
  {
  }

  /** The decoder's result once the instruction word and the operands are known. */
  lemma DecodeAtOf(memory: seq<int>, pointer: int, op: int, t1: int, t2: int, t3: int, ps: seq<Param>)
    requires InBounds(memory, pointer) && ParseOpcode(memory[pointer]) == (op, t1, t2, t3) && KnownOpcode(op)
    requires |ps| == |ModesFor(op, 0, 0, 0)|
    requires Operands(memory, pointer, memory[pointer], ModesFor(op, t1, t2, t3), 0) == Success(ps)
    ensures DecodeAt(memory, pointer) == Success(Assemble(op, ps))
  {
  }

  /** Memory holds the encoding of `i` at `pointer`. */
  predicate HoldsEncoding(memory: seq<int>, pointer: int, i: Instruction) {
    0 <= pointer && pointer + |Encode(i)| <= |memory| && memory[pointer..pointer + |Encode(i)|] == Encode(i)
  }

  lemma EncodedFirstWord(memory: seq<int>, pointer: int, i: Instruction)
    requires HoldsEncoding(memory, pointer, i)
    ensures InBounds(memory, pointer) && memory[pointer] == Encode(i)[0]
  {
    assert memory[pointer..pointer + |Encode(i)|][0] == Encode(i)[0];
  }

  /** The instruction word of an encoding parses into its opcode and mode digits. */
  lemma EncodedWord(memory: seq<int>, pointer: int, i: Instruction)
    requires HoldsEncoding(memory, pointer, i)
    ensures var ps := OperandList(i);
            InBounds(memory, pointer) && ParseOpcode(memory[pointer]) == (OpcodeOf(i), ModeDigit(ps, 0), ModeDigit(ps, 1), ModeDigit(ps, 2))
  {
    EncodedFirstWord(memory, pointer, i);
    EncodeWordParses(i);
  }

  lemma EncodeWordParses(i: Instruction)
    ensures var ps := OperandList(i);
            ParseOpcode(Encode(i)[0]) == (OpcodeOf(i), ModeDigit(ps, 0), ModeDigit(ps, 1), ModeDigit(ps, 2))
  {
    var ps := OperandList(i);
    var op, m1, m2, m3 := OpcodeOf(i), ModeDigit(ps, 0), ModeDigit(ps, 1), ModeDigit(ps, 2);
    assert Encode(i)[0] == op + 100 * m1 + 1000 * m2 + 10000 * m3;
    ParseOpcodeOfComposed(op, m1, m2, m3);
  }

  /** The operand words of an encoding decode into the operands of `AsDecoded(i)`. */
  lemma EncodedOperands(memory: seq<int>, pointer: int, i: Instruction)
    requires HoldsEncoding(memory, pointer, i)
    ensures var ps := OperandList(i);
            var modes := ModesFor(OpcodeOf(i), ModeDigit(ps, 0), ModeDigit(ps, 1), ModeDigit(ps, 2));
            Operands(memory, pointer, memory[pointer], modes, 0) == Success(OperandList(AsDecoded(i)))
  {
    var e, ps, qs := Encode(i), OperandList(i), OperandList(AsDecoded(i));
    var modes := ModesFor(OpcodeOf(i), ModeDigit(ps, 0), ModeDigit(ps, 1), ModeDigit(ps, 2));
    DecoderTables(i);
    forall j | 0 <= j < |qs|
      ensures ReadsBack(memory, pointer, modes, qs, j)
    {
      assert memory[pointer + j + 1] == e[j + 1] by {
        assert memory[pointer..pointer + |e|][j + 1] == e[j + 1];
      }
      ParamFromModeOf(qs[j]);
    }
    assert memory[pointer] == memory[pointer..pointer + |e|][0];
    OperandsOf(memory, pointer, memory[pointer], modes, 0, qs);
    assert qs[0..] == qs;
  }

  /** Decoding an encoded instruction yields it back, up to the destination
      mode of Add and Mul. */
  lemma DecodeEncode(memory: seq<int>, pointer: int, i: Instruction)
    requires HoldsEncoding(memory, pointer, i)
    ensures DecodeAt(memory, pointer) == Success(AsDecoded(i))
    ensures !(i.Add? || i.Mul?) || ModeOf(i.dst) == ModeOf(i.y) ==> AsDecoded(i) == i
  {
    var ps := OperandList(i);
    DecoderTables(i);
    EncodedWord(memory, pointer, i);
    EncodedOperands(memory, pointer, i);
    DecodeAtOf(memory, pointer, OpcodeOf(i), ModeDigit(ps, 0), ModeDigit(ps, 1), ModeDigit(ps, 2), OperandList(AsDecoded(i)));
  }

  /** The misread destination mode never changes what an instruction does,
      because write-evaluation yields the raw word in either mode. */
  lemma AsDecodedExecutesAlike(m: Machine, i: Instruction)
    ensures Execute(m, AsDecoded(i)) == Execute(m, i)
  {
  }

  // ---------------------------------------------------------------- runs

  predicate IsPrefix(s: seq<int>, t: seq<int>) {
    |s| <= |t| && t[..|s|] == s
  }

  predicate IsSuffix(s: seq<int>, t: seq<int>) {
    |s| <= |t| && s == t[|t| - |s|..]
  }

  lemma PrefixTransitive(a: seq<int>, b: seq<int>, c: seq<int>)
    requires IsPrefix(a, b) && IsPrefix(b, c)
    ensures IsPrefix(a, c)
  {
    assert c[..|a|] == c[..|b|][..|a|];
  }

  lemma SuffixTransitive(a: seq<int>, b: seq<int>, c: seq<int>)
    requires IsSuffix(a, b) && IsSuffix(b, c)
    ensures IsSuffix(a, c)
  {
    assert c[|c| - |a|..] == c[|c| - |b|..][|b| - |a|..];
  }

  /** The pointer rests on a word whose opcode is 99. */
  predicate OnHaltWord(m: Machine) {
    InBounds(m.memory, m.pointer) && ParseOpcode(m.memory[m.pointer]).0 == 99
  }

  /** What one successful step from a running machine `m` to `n` may do:
      keep the memory size and configuration, append at most one output,
      consume input from the head, and raise the flag only by executing a
      halt instruction (changing nothing else) or by a suspending output. */
  predicate StepOk(m: Machine, n: Machine) {
    && |n.memory| == |m.memory|
    && n.haltOnOutput == m.haltOnOutput
    && IsPrefix(m.output, n.output) && |n.output| <= |m.output| + 1
    && IsSuffix(n.input, m.input)
    && (m.haltOnOutput && |n.output| > |m.output| ==> n.halted)
    && (n.halted ==> (OnHaltWord(m) && n == m.(halted := true)) || (m.haltOnOutput && |n.output| == |m.output| + 1))
  }

  ghost predicate WellBehaved(step: Machine -> Result<Machine, Fault>) {
    forall m: Machine :: !m.halted && step(m).Success? ==> StepOk(m, step(m).value)
  }

  /** Every step of the interpreter is well behaved. */
  lemma StepWellBehaved()
    ensures WellBehaved(Step)
  {
    forall m: Machine | !m.halted && Step(m).Success?
      ensures StepOk(m, Step(m).value)
    {
      var i := DecodeAt(m.memory, m.pointer).value;
      var n := Step(m).value;
      assert Step(m) == Execute(m, i);
      if n.input != m.input {
        assert n.input == m.input[1..];
      }
    }
  }

  /** A run of well-behaved steps keeps the memory size and configuration,
      only appends to the output queue and only consumes the input queue. */
  lemma {:induction false} LoopExtendsQueues(step: Machine -> Result<Machine, Fault>, m: Machine, fuel: nat)
    requires WellBehaved(step) && Loop(step, m, fuel).Finished?
    ensures var n := Loop(step, m, fuel).machine;
            && |n.memory| == |m.memory| && n.haltOnOutput == m.haltOnOutput
            && IsPrefix(m.output, n.output) && IsSuffix(n.input, m.input)
    decreases fuel
  {
    if !m.halted {
      var next := step(m).value;
      LoopExtendsQueues(step, next, fuel - 1);
      var n := Loop(step, next, fuel - 1).machine;
      PrefixTransitive(m.output, next.output, n.output);
      SuffixTransitive(n.input, next.input, m.input);
    }
  }

  /** In suspend-on-output mode a run adds at most one output value. */
  lemma {:induction false} LoopSuspendsAfterOneOutput(step: Machine -> Result<Machine, Fault>, m: Machine, fuel: nat)
    requires WellBehaved(step) && m.haltOnOutput && Loop(step, m, fuel).Finished?
    ensures |Loop(step, m, fuel).machine.output| <= |m.output| + 1
    decreases fuel
  {
    if !m.halted {
      var next := step(m).value;
      if |next.output| == |m.output| {
        LoopSuspendsAfterOneOutput(step, next, fuel - 1);
      }
    }
  }

  /** A run from a running machine that ends without a suspending output
      stops with the pointer on a halt instruction. */
  lemma {:induction false} LoopEndsOnHalt(step: Machine -> Result<Machine, Fault>, m: Machine, fuel: nat)
    requires WellBehaved(step) && !m.halted && Loop(step, m, fuel).Finished?
    requires !m.haltOnOutput || |Loop(step, m, fuel).machine.output| == |m.output|
    ensures OnHaltWord(Loop(step, m, fuel).machine)
    decreases fuel
  {
    var next := step(m).value;
    if !next.halted {
      LoopExtendsQueues(step, next, fuel - 1);
      LoopEndsOnHalt(step, next, fuel - 1);
    }
  }

  /** A run keeps the memory size and the configuration, only appends to the
      output queue and only consumes the input queue, from its head. */
  lemma RunExtendsQueues(m: Machine, fuel: nat)
    requires Run(m, fuel).Finished?
    ensures var n := Run(m, fuel).machine;
            && !n.halted && |n.memory| == |m.memory| && n.haltOnOutput == m.haltOnOutput
            && IsPrefix(m.output, n.output) && IsSuffix(n.input, m.input)
  {
    StepWellBehaved();
    LoopExtendsQueues(Step, m, fuel);
  }

  /** In suspend-on-output mode one run adds at most one output value. */
  lemma RunSuspendsAfterOneOutput(m: Machine, fuel: nat)
    requires m.haltOnOutput && Run(m, fuel).Finished?
    ensures |Run(m, fuel).machine.output| <= |m.output| + 1
  {
    StepWellBehaved();
    LoopSuspendsAfterOneOutput(Step, m, fuel);
  }

  /** Fuel only cuts a run short: once a run ends, more fuel gives the same outcome. */
  lemma {:induction false} LoopFuelMonotone(step: Machine -> Result<Machine, Fault>, m: Machine, fuel: nat, more: nat)
    requires !Loop(step, m, fuel).OutOfFuel?
    requires fuel <= more
    ensures Loop(step, m, more) == Loop(step, m, fuel)
    decreases fuel
  {
    if !m.halted && step(m).Success? {
      LoopFuelMonotone(step, step(m).value, fuel - 1, more - 1);
    }
  }

  /** A run that ends (finished or crashed) with some fuel ends the same way with more. */
  lemma RunFuelMonotone(m: Machine, fuel: nat, more: nat)
    requires !Run(m, fuel).OutOfFuel? && fuel <= more
    ensures Run(m, more) == Run(m, fuel)
  {
    LoopFuelMonotone(Step, m, fuel, more);
  }

  /** Executing the halt word raises the flag and changes nothing else. */
  lemma HaltWordStep(m: Machine)
    requires !m.halted && OnHaltWord(m)
    ensures Step(m) == Success(m.(halted := true))
  {
    assert DecodeAt(m.memory, m.pointer) == Success(Halt);
  }

  /** A loop whose first step only raises the flag finishes on the same machine. */
  lemma LoopHaltsAtOnce(step: Machine -> Result<Machine, Fault>, m: Machine, fuel: nat)
    requires !m.halted && fuel >= 1 && step(m) == Success(m.(halted := true))
    ensures Loop(step, m, fuel) == Finished(m)
  {
    assert Loop(step, m, fuel) == Loop(step, m.(halted := true), fuel - 1);
  }

  /** Re-running a machine whose run ended on a halt instruction halts again
      at once: no new output, no memory change, the same pointer. */
  lemma RerunAfterHalt(m: Machine, fuel: nat, again: nat)
    requires !m.halted && Run(m, fuel).Finished? && again >= 1
    requires !m.haltOnOutput || |Run(m, fuel).machine.output| == |m.output|
    ensures var n := Run(m, fuel).machine;
            Run(n, again) == Finished(n)
  {
    StepWellBehaved();
    LoopEndsOnHalt(Step, m, fuel);
    var n := Run(m, fuel).machine;
    LoopExtendsQueues(Step, m, fuel);
    HaltWordStep(n);
    LoopHaltsAtOnce(Step, n, again);
  }

  /** One successful step of a loop with fuel left. */
  lemma LoopStep(step: Machine -> Result<Machine, Fault>, m: Machine, n: Machine, fuel: nat)
    requires !m.halted && fuel >= 1 && step(m) == Success(n)
    ensures Loop(step, m, fuel) == Loop(step, n, fuel - 1)
  {
  }

  /** A running machine steps by executing the instruction decoded at its pointer. */
  lemma StepDecoded(m: Machine, i: Instruction)
    requires !m.halted && DecodeAt(m.memory, m.pointer) == Success(i)
    ensures Step(m) == Execute(m, i)
  {
  }

  /** The program that compares its input with 8, positional modes throughout. */
  const CompareWithEight: seq<int> := [3, 9, 8, 9, 10, 9, 4, 9, 99, -1, 8]

  lemma CompareReadsInput(v: int)
    ensures Step(AddInput(New(CompareWithEight), v)) == Success(Machine(CompareWithEight[9 := v], [], [], 2, false, false))
  {
    var p := CompareWithEight;
    assert p[0..2] == Encode(Inp(Position(9)));
    DecodeEncode(p, 0, Inp(Position(9)));
  }

  lemma CompareEquals(v: int)
    ensures var b := if v == 8 then 1 else 0;
            Step(Machine(CompareWithEight[9 := v], [], [], 2, false, false)) == Success(Machine(CompareWithEight[9 := b], [], [], 6, false, false))
  {
    var p := CompareWithEight[9 := v];
    var i := Equals(Position(9), Position(10), Position(9));
    var m := Machine(p, [], [], 2, false, false);
    assert p[2..6] == Encode(i);
    DecodeEncode(p, 2, i);
    StepDecoded(m, i);
    CompareExecutesEquals(v);
  }

  lemma CompareExecutesEquals(v: int)
    ensures var b := if v == 8 then 1 else 0;
            var m := Machine(CompareWithEight[9 := v], [], [], 2, false, false);
            Execute(m, Equals(Position(9), Position(10), Position(9))) == Success(Machine(CompareWithEight[9 := b], [], [], 6, false, false))
  {
    var p := CompareWithEight[9 := v];
    var b := if v == 8 then 1 else 0;
    var i := Equals(Position(9), Position(10), Position(9));
    var m := Machine(p, [], [], 2, false, false);
    var r := ExecuteBinary(m, i);
    assert Execute(m, i) == r;
    assert ReadValue(p, Position(9)) == v;
    assert ReadValue(p, Position(10)) == 8;
    assert r.Success?;
    assert r.value.memory == p[9 := b] == CompareWithEight[9 := b];
    assert r.value == Machine(CompareWithEight[9 := b], [], [], 6, false, false);
  }

  lemma CompareOutputs(b: int)
    ensures Step(Machine(CompareWithEight[9 := b], [], [], 6, false, false)) == Success(Machine(CompareWithEight[9 := b], [], [b], 8, false, false))
  {
    var p := CompareWithEight[9 := b];
    var i := Out(Position(9));
    var m := Machine(p, [], [], 6, false, false);
    assert p[6..8] == Encode(i);
    DecodeEncode(p, 6, i);
    StepDecoded(m, i);
    var r := ExecuteOutput(m, i);
    assert Execute(m, i) == r;
    assert ReadValue(p, Position(9)) == b;
    assert r.Success?;
    assert r.value.output == [b];
  }

  lemma CompareHalts(b: int)
    ensures var m := Machine(CompareWithEight[9 := b], [], [b], 8, false, false);
            Step(m) == Success(m.(halted := true))
  {
    var m := Machine(CompareWithEight[9 := b], [], [b], 8, false, false);
    assert m.memory[8] == 99;
    assert ParseOpcode(99).0 == 99;
    HaltWordStep(m);
  }

  /** The comparison program outputs 1 exactly when its input equals 8, and
      0 otherwise, after four steps. */
  lemma EqualsEightExample(v: int)
    ensures var b := if v == 8 then 1 else 0;
            Run(AddInput(New(CompareWithEight), v), 4) == Finished(Machine(CompareWithEight[9 := b], [], [b], 8, false, false))
  {
    var b := if v == 8 then 1 else 0;
    var p := CompareWithEight;
    var m0 := AddInput(New(p), v);
    var m1 := Machine(p[9 := v], [], [], 2, false, false);
    var m2 := Machine(p[9 := b], [], [], 6, false, false);
    var m3 := Machine(p[9 := b], [], [b], 8, false, false);
    CompareReadsInput(v);
    CompareEquals(v);
    CompareOutputs(b);
    CompareHalts(b);
    LoopStep(Step, m0, m1, 4);
    LoopStep(Step, m1, m2, 3);
    LoopStep(Step, m2, m3, 2);
    LoopHaltsAtOnce(Step, m3, 1);
  }
}

=== FILE: day1.dfy ===
/** Fuel for modules of a given mass: a third of the mass, rounded toward
    zero, minus two; and the total fuel once the fuel itself needs fuel. */
module Fuel {
  import RustInt

  /** `calc`: the fuel one mass needs, with Rust's truncating division. */
  function Calc(mass: int): (f: int)
    ensures mass >= 0 ==> f == mass / 3 - 2
    ensures mass >= 0 ==> 3 * (f + 2) <= mass < 3 * (f + 2) + 3
    ensures mass < 0 ==> f == -((-mass) / 3) - 2
  {
    RustInt.Quot(mass, 3) - 2
  }

  /** Reference definition: the sum of the positive terms of the chain
      `x, Calc(x), Calc(Calc(x)), …`, up to the first term that is not positive. */
  function Chain(x: int): (s: int)
    ensures s >= 0
    ensures x > 0 ==> s >= x
    decreases if x > 0 then x else 0
  {
    if x <= 0 then 0 else x + Chain(Calc(x))
  }

  /** The total fuel for one mass, counting the fuel for the fuel. */
  function TotalFuel(mass: int): (t: int)
    ensures t >= 0
    ensures Calc(mass) <= 0 ==> t == 0
    ensures Calc(mass) > 0 ==> t == Calc(mass) + TotalFuel(Calc(mass))
  {
    Chain(Calc(mass))
  }

  /** `calc2`: accumulates the fuel chain while the fuel stays positive. */
  method Calc2(mass0: int) returns (result: int)
    ensures result == TotalFuel(mass0)
    ensures result >= 0
  {
    result := 0;
    var mass := Calc(mass0);
    while mass > 0
      invariant result + Chain(mass) == TotalFuel(mass0)
      invariant result >= 0
      decreases mass
    {
      result := result + mass;
      mass := Calc(mass);
    }
  }

  /** The sum of `f` over the masses, left to right. */
  function SumOf(f: int -> int, masses: seq<int>): int
    decreases |masses|
  {
    if |masses| == 0 then 0 else SumOf(f, masses[..|masses| - 1]) + f(masses[|masses| - 1])
  }

  /** Summing over two lists back to back is the sum of the two sums. */
  lemma {:induction false} SumOfAppend(f: int -> int, a: seq<int>, b: seq<int>)
    ensures SumOf(f, a + b) == SumOf(f, a) + SumOf(f, b)
    decreases |b|
  {
    if |b| == 0 {
      assert a + b == a;
    } else {
      assert (a + b)[..|a + b| - 1] == a + b[..|b| - 1];
      SumOfAppend(f, a, b[..|b| - 1]);
    }
  }

  /** `solve1`: the fuel for every mass, summed. */
  method Solve1(masses: seq<int>) returns (total: int)
    ensures total == SumOf(Calc, masses)
  {
    total := 0;
    var i := 0;
    while i < |masses|
      invariant 0 <= i <= |masses|
      invariant total == SumOf(Calc, masses[..i])
    {
      assert masses[..i + 1][..i] == masses[..i];
      total := total + Calc(masses[i]);
      i := i + 1;
    }
    assert masses[..i] == masses;
  }

  /** `solve2`: the total fuel for every mass, summed; never negative. */
  method Solve2(masses: seq<int>) returns (total: int)
    ensures total == SumOf(TotalFuel, masses)
    ensures total >= 0
  {
    total := 0;
    var i := 0;
    while i < |masses|
      invariant 0 <= i <= |masses|
      invariant total == SumOf(TotalFuel, masses[..i])
      invariant total >= 0
    {
      assert masses[..i + 1][..i] == masses[..i];
      var f := Calc2(masses[i]);
      total := total + f;
      i := i + 1;
    }
    assert masses[..i] == masses;
  }

  /** The examples of the puzzle: 12 and 14 need 2, 1969 needs 654, 100756
      needs 33583; counting fuel for fuel, 14 needs 2 and 1969 needs 966. */
  lemma Examples()
    ensures Calc(12) == 2 && Calc(14) == 2 && Calc(1969) == 654 && Calc(100756) == 33583
    ensures TotalFuel(14) == 2 && TotalFuel(1969) == 966
  {
    assert Calc(654) == 216 && Calc(216) == 70 && Calc(70) == 21 && Calc(21) == 5 && Calc(5) == -1;
    assert Chain(5) == 5;
    assert Chain(21) == 26;
    assert Chain(70) == 96;
    assert Chain(216) == 312;
  }
}

=== FILE: day2.dfy ===
/** The first, two-opcode interpreter: opcode 1 adds and opcode 2
    multiplies the words at two positions into a third, opcode 99 stops,
    and every instruction is four words wide. */
module Gravity {
  import opened Results

  datatype Day2Error =
    | NoValidProgram         // an operand position lies outside the program
    | UnknownOpcode(op: int) // a word other than 1, 2 or 99 in opcode position
    | IndexOutOfRange(index: int)  // the loop indexed past the end of the program

  /** A position operand is usable when it lies inside the program; a
      negative word, cast to an unsigned index, lies beyond its end. */
  predicate ValidPosition(program: seq<int>, pos: int) {
    0 <= pos < |program|
  }

  /** One instruction at `i`: the three operand positions are checked before
      the opcode is looked at, then the sum or product is stored. */
  function StepAt(program: seq<int>, i: nat): (r: Result<seq<int>, Day2Error>)
    requires i + 3 < |program|
    ensures var p1, p2, dst := program[i + 1], program[i + 2], program[i + 3];
            var valid := ValidPosition(program, p1) && ValidPosition(program, p2) && ValidPosition(program, dst);
            && (!valid ==> r == Failure(NoValidProgram))
            && (valid && program[i] != 1 && program[i] != 2 ==> r == Failure(UnknownOpcode(program[i])))
            && (r.Success? <==> valid && (program[i] == 1 || program[i] == 2))
            && (r.Success? ==>
                  && |r.value| == |program|
                  && (forall k :: 0 <= k < |program| && k != dst ==> r.value[k] == program[k])
                  && (program[i] == 1 ==> r.value[dst] == program[p1] + program[p2])
                  && (program[i] == 2 ==> r.value[dst] == program[p1] * program[p2]))
  {
    var p1, p2, dst := program[i + 1], program[i + 2], program[i + 3];
    if !ValidPosition(program, p1) || !ValidPosition(program, p2) || !ValidPosition(program, dst) then
      Failure(NoValidProgram)
    else if program[i] == 1 then Success(program[dst := program[p1] + program[p2]])
    else if program[i] == 2 then Success(program[dst := program[p1] * program[p2]])
    else Failure(UnknownOpcode(program[i]))
  }

  /** The loop from pointer `i`: the final program and the pointer of the
      99 that stopped it. The first word past the end that the loop reads
      is the end itself. */
  function Final(program: seq<int>, i: nat): (r: Result<(seq<int>, nat), Day2Error>)
    ensures i >= |program| ==> r == Failure(IndexOutOfRange(i))
    ensures i < |program| && program[i] == 99 ==> r == Success((program, i))
    ensures i < |program| && program[i] != 99 && i + 3 >= |program| ==> r == Failure(IndexOutOfRange(|program|))
    ensures r.Success? ==>
              var (mem, j) := r.value;
              && |mem| == |program| && i <= j < |mem| && mem[j] == 99 && (j - i) % 4 == 0
    decreases |program| - i
  {
    if i >= |program| then Failure(IndexOutOfRange(i))
    else if program[i] == 99 then Success((program, i))
    else if i + 3 >= |program| then Failure(IndexOutOfRange(|program|))
    else
      var next :- StepAt(program, i);
      Final(next, i + 4)
  }

  /** `process_program`: runs the program from pointer 0 and returns its
      first word once a 99 is reached. */
  method ProcessProgram(program0: seq<int>) returns (r: Result<int, Day2Error>)
    ensures r.Success? <==> Final(program0, 0).Success?
    ensures r.Success? ==> r.value == Final(program0, 0).value.0[0]
    ensures r.Failure? ==> r.error == Final(program0, 0).error
  {
    var program := program0;
    var i: nat := 0;
    while i >= |program| || program[i] != 99
      invariant |program| == |program0|
      invariant Final(program0, 0) == Final(program, i)
      decreases |program| - i
    {
      if i >= |program| {
        return Failure(IndexOutOfRange(i));
      }
      if i + 3 >= |program| {
        return Failure(IndexOutOfRange(|program|));
      }
      var pos1, pos2, posResult := program[i + 1], program[i + 2], program[i + 3];
      if !ValidPosition(program, pos1) || !ValidPosition(program, pos2) || !ValidPosition(program, posResult) {
        return Failure(NoValidProgram);
      }
      var next;
      if program[i] == 1 {
        next := program[posResult := program[pos1] + program[pos2]];
      } else if program[i] == 2 {
        next := program[posResult := program[pos1] * program[pos2]];
      } else {
        return Failure(UnknownOpcode(program[i]));
      }
      assert StepAt(program, i) == Success(next);
      program, i := next, i + 4;
    }
    return Success(program[0]);
  }

  /** The examples of the puzzle. */
  lemma Examples()
    ensures Final([1, 1, 1, 4, 99, 5, 6, 0, 99], 0) == Success(([30, 1, 1, 4, 2, 5, 6, 0, 99], 8))
    ensures Final([1, 0, 0, 0, 99], 0) == Success(([2, 0, 0, 0, 99], 4))
    ensures Final([2, 3, 0, 3, 99], 0) == Success(([2, 3, 0, 6, 99], 4))
    ensures Final([2, 4, 4, 5, 99, 0], 0) == Success(([2, 4, 4, 5, 99, 9801], 4))
  {
    var a, a1, a2 := [1, 1, 1, 4, 99, 5, 6, 0, 99], [1, 1, 1, 4, 2, 5, 6, 0, 99], [30, 1, 1, 4, 2, 5, 6, 0, 99];
    assert StepAt(a, 0) == Success(a1) by { assert a[4 := a[1] + a[1]] == a1; }
    assert StepAt(a1, 4) == Success(a2) by { assert a1[0 := a1[5] * a1[6]] == a2; }
    assert Final(a1, 4) == Final(a2, 8);
    var b, b1 := [1, 0, 0, 0, 99], [2, 0, 0, 0, 99];
    assert StepAt(b, 0) == Success(b1) by { assert b[0 := b[0] + b[0]] == b1; }
    var c, c1 := [2, 3, 0, 3, 99], [2, 3, 0, 6, 99];
    assert StepAt(c, 0) == Success(c1) by { assert c[3 := c[3] * c[0]] == c1; }
    var d, d1 := [2, 4, 4, 5, 99, 0], [2, 4, 4, 5, 99, 9801];
    assert StepAt(d, 0) == Success(d1) by { assert d[5 := d[4] * d[4]] == d1; }
  }
}

=== FILE: day3.dfy ===
/** Two wires on a grid. A wire is a list of moves such as `R8` or `U5`,
    each a number of unit steps in one of four directions from where the
    previous move ended, starting at the origin. `wire` is the set of grid
    points a wire visits; `wire2` maps each visited point to the number of
    steps the wire took to reach it the first time. */
module Wires {
  import opened Results

  datatype Direction = R | U | L | D

  datatype Move = Move(direction: Direction, steps: int)

  datatype Coor = Coor(x: int, y: int)

  /** A visited point with the step count at which it was reached. Nodes are
      equal when their points are: a set of nodes is a map from points. */
  datatype Node = Node(coor: Coor, steps: int)

  datatype WireError =
    | UnknownDirection       // the first character is not R, U, L or D (or there is none)
    | BadSteps               // the rest of the move does not parse as an `i32`
    | EmptyMove(index: nat)  // a move of no steps has no last point to continue from

  const Origin := Coor(0, 0)

  const I32Min: int := -0x8000_0000
  const I32Max: int := 0x7fff_ffff

  // ---------------------------------------------------------------------
  // Parsing a move

  predicate IsDigit(ch: char) {
    '0' <= ch <= '9'
  }

  predicate AllDigits(s: string) {
    forall i :: 0 <= i < |s| ==> IsDigit(s[i])
  }

  /** The value of a string of decimal digits, most significant first. */
  function DigitsValue(s: string): nat
    requires AllDigits(s)
    decreases |s|
  {
    if |s| == 0 then 0 else 10 * DigitsValue(s[..|s| - 1]) + (s[|s| - 1] as int - '0' as int)
  }

  /** The string without its leading sign, if it has one. */
  function Unsigned(s: string): string {
    if |s| > 0 && (s[0] == '+' || s[0] == '-') then s[1..] else s
  }

  /** A signed decimal numeral: an optional sign, then at least one digit
      and nothing else. */
  predicate IsNumeral(s: string) {
    |Unsigned(s)| > 0 && AllDigits(Unsigned(s))
  }

  /** The value a numeral denotes, negative exactly after a `-`. */
  function NumeralValue(s: string): int
    requires IsNumeral(s)
  {
    var n: int := DigitsValue(Unsigned(s));
    if s[0] == '-' then -n else n
  }

  /** `str::parse::<i32>`: an optional `+` or `-`, then at least one decimal
      digit and nothing else, and a value that fits in 32 bits. */
  function ParseI32(s: string): (r: Option<int>)
    ensures r.Some? ==> I32Min <= r.value <= I32Max
    ensures |s| == 0 ==> r.None?
    ensures r.Some? ==> IsNumeral(s) && r.value == NumeralValue(s)
    ensures IsNumeral(s) && I32Min <= NumeralValue(s) <= I32Max ==> r == Some(NumeralValue(s))
  {
    var negative := |s| > 0 && s[0] == '-';
    var body := if |s| > 0 && (s[0] == '+' || s[0] == '-') then s[1..] else s;
    if |body| == 0 || !AllDigits(body) then None
    else
      var n: int := DigitsValue(body);
      var v := if negative then -n else n;
      if I32Min <= v <= I32Max then Some(v) else None
  }

  function DirectionOf(ch: char): Option<Direction> {
    match ch
    case 'R' => Some(R)
    case 'U' => Some(U)
    case 'L' => Some(L)
    case 'D' => Some(D)
    case _ => None
  }

  function Letter(d: Direction): char {
    match d
    case R => 'R'
    case U => 'U'
    case L => 'L'
    case D => 'D'
  }

  /** `Move::new`: the direction from the first character, the step count
      from the rest. */
  function ParseMove(raw: string): (r: Result<Move, WireError>)
    ensures |raw| == 0 ==> r == Failure(UnknownDirection)
    ensures |raw| > 0 && raw[0] !in "RULD" ==> r == Failure(UnknownDirection)
    ensures r.Success? <==> |raw| > 0 && raw[0] in "RULD" && ParseI32(raw[1..]).Some?
    ensures r.Success? ==> Letter(r.value.direction) == raw[0] && I32Min <= r.value.steps <= I32Max
    ensures r.Success? ==> ParseI32(raw[1..]) == Some(r.value.steps)
    ensures |raw| > 0 && raw[0] in "RULD" && ParseI32(raw[1..]).None? ==> r == Failure(BadSteps)
  {
    if |raw| == 0 then Failure(UnknownDirection)
    else match DirectionOf(raw[0])
      case None => Failure(UnknownDirection)
      case Some(d) =>
        match ParseI32(raw[1..])
        case None => Failure(BadSteps)
        case Some(n) => Success(Move(d, n))
  }

  /** Decimal rendering of a natural number, without leading zeros. */
  function ShowNat(n: nat): string
    decreases n
  {
    if n < 10 then [('0' as int + n) as char] else ShowNat(n / 10) + [('0' as int + n % 10) as char]
  }

  function ShowInt(v: int): string {
    if v < 0 then "-" + ShowNat(-v) else ShowNat(v)
  }

  /** The way a move is written in the input, e.g. `R8` or `D-3`. */
  function Render(m: Move): string {
    [Letter(m.direction)] + ShowInt(m.steps)
  }

  lemma {:induction false} ShowNatDigits(n: nat)
    ensures |ShowNat(n)| > 0 && AllDigits(ShowNat(n)) && DigitsValue(ShowNat(n)) == n
    decreases n
  {
    if n >= 10 {
      ShowNatDigits(n / 10);
      var s := ShowNat(n);
      assert s[..|s| - 1] == ShowNat(n / 10);
    }
  }

  /** The digits of a natural number parse back to it: they have no sign. */
  lemma ParseShowNat(n: nat)
    requires n <= I32Max
    ensures ParseI32(ShowNat(n)) == Some(n)
  {
    var t := ShowNat(n);
    ShowNatDigits(n);
    assert IsDigit(t[0]);
  }

  /** The digits of a negative number follow its minus sign. */
  lemma ParseShowNegative(v: int)
    requires I32Min <= v < 0
    ensures ParseI32(ShowInt(v)) == Some(v)
  {
    var t := ShowNat(-v);
    ShowNatDigits(-v);
    var s := ShowInt(v);
    assert s == ['-'] + t;
    assert s[0] == '-' && s[1..] == t;
    assert AllDigits(s[1..]) && DigitsValue(s[1..]) == -v;
  }

  /** Parsing a rendered 32-bit number gives it back. */
  lemma ParseShowInt(v: int)
    requires I32Min <= v <= I32Max
    ensures ParseI32(ShowInt(v)) == Some(v)
  {
    if v < 0 {
      ParseShowNegative(v);
    } else {
      ParseShowNat(v);
    }
  }

  /** Parsing a rendered move gives it back. */
  lemma ParseRender(m: Move)
    requires I32Min <= m.steps <= I32Max
    ensures ParseMove(Render(m)) == Success(m)
  {
    ParseShowInt(m.steps);
    assert Render(m)[1..] == ShowInt(m.steps);
  }

  // ---------------------------------------------------------------------
  // Walking a move

  /** The unit vector of a direction. */
  function DX(d: Direction): int {
    match d
    case R => 1
    case L => -1
    case _ => 0
  }

  function DY(d: Direction): int {
    match d
    case U => 1
    case D => -1
    case _ => 0
  }

  /** The point `n` unit steps from `c` in direction `d`. */
  function Shift(c: Coor, d: Direction, n: int): Coor {
    Coor(c.x + n * DX(d), c.y + n * DY(d))
  }

  /** `Move::to_coord`: the points one, two, … `steps` steps away from
      `current`; a move of no or negative steps visits nothing. */
  function ToCoord(m: Move, current: Coor): (r: seq<Coor>)
    ensures |r| == if m.steps > 0 then m.steps else 0
    ensures forall k :: 0 <= k < |r| ==> r[k] == Shift(current, m.direction, k + 1)
  {
    seq(if m.steps > 0 then m.steps else 0, k =>
      match m.direction
      case R => Coor(current.x + (k + 1), current.y)
      case L => Coor(current.x - (k + 1), current.y)
      case U => Coor(current.x, current.y + (k + 1))
      case D => Coor(current.x, current.y - (k + 1)))
  }

  /** `Move::to_nodes`: the same points, each with the step count reached
      there when `current` was reached after `count` steps. */
  function ToNodes(m: Move, current: Coor, count: int): (r: seq<Node>)
    ensures |r| == |ToCoord(m, current)|
    ensures forall k :: 0 <= k < |r| ==> r[k].coor == ToCoord(m, current)[k] && r[k].steps == count + k + 1
  {
    seq(if m.steps > 0 then m.steps else 0, k =>
      match m.direction
      case R => Node(Coor(current.x + (k + 1), current.y), count + (k + 1))
      case L => Node(Coor(current.x - (k + 1), current.y), count + (k + 1))
      case U => Node(Coor(current.x, current.y + (k + 1)), count + (k + 1))
      case D => Node(Coor(current.x, current.y - (k + 1)), count + (k + 1)))
  }

  function Abs(n: int): nat {
    if n < 0 then -n else n
  }

  /** `dist_to_origin`: the Manhattan distance to the origin. */
  function DistToOrigin(c: Coor): (r: int)
    ensures r >= 0
    ensures r == 0 <==> c == Origin
    ensures r >= c.x && r >= -c.x && r >= c.y && r >= -c.y
    ensures r >= c.x + c.y && r >= c.x - c.y && r >= -c.x + c.y && r >= -c.x - c.y
    ensures r == c.x + c.y || r == c.x - c.y || r == -c.x + c.y || r == -c.x - c.y
  {
    Abs(c.x) + Abs(c.y)
  }

  /** One unit step changes the distance to the origin by exactly one, so
      `n` steps change it by at most `n`. */
  lemma DistAlongMove(c: Coor, d: Direction, n: nat)
    ensures DistToOrigin(c) - n <= DistToOrigin(Shift(c, d, n)) <= DistToOrigin(c) + n
  {
  }

  // ---------------------------------------------------------------------
  // Whole wires

  function Elems(s: seq<Coor>): set<Coor> {
    set c | c in s
  }

  /** `wire` from move `i` on, continuing from `current`: the points of every
      remaining move, each move starting at the last point of the one before. */
  function WireFrom(moves: seq<Move>, i: nat, current: Coor): (r: Result<set<Coor>, WireError>)
    requires i <= |moves|
    decreases |moves| - i
  {
    if i == |moves| then Success({})
    else
      var points := ToCoord(moves[i], current);
      if |points| == 0 then Failure(EmptyMove(i))
      else
        var rest :- WireFrom(moves, i + 1, points[|points| - 1]);
        Success(Elems(points) + rest)
  }

  /** A wire fails exactly when one of its moves has no steps, and then
      names the first such move. */
  predicate FailsAtFirstEmpty<T>(moves: seq<Move>, i: nat, r: Result<T, WireError>)
    requires i <= |moves|
  {
    && (r.Success? <==> forall j :: i <= j < |moves| ==> moves[j].steps > 0)
    && (r.Failure? ==>
          && r.error.EmptyMove? && i <= r.error.index < |moves| && moves[r.error.index].steps <= 0
          && forall j :: i <= j < r.error.index ==> moves[j].steps > 0)
  }

  lemma {:induction false} WireFromFails(moves: seq<Move>, i: nat, current: Coor)
    requires i <= |moves|
    ensures FailsAtFirstEmpty(moves, i, WireFrom(moves, i, current))
    decreases |moves| - i
  {
    if i < |moves| && moves[i].steps > 0 {
      var points := ToCoord(moves[i], current);
      WireFromFails(moves, i + 1, points[|points| - 1]);
    }
  }

  /** `wire`: the set of points the wire visits, starting at the origin.
      The origin itself is not counted unless the wire returns to it. */
  function Wire(moves: seq<Move>): Result<set<Coor>, WireError> {
    WireFrom(moves, 0, Origin)
  }

  /** Inserting a node into a set of nodes compared by point: a point already
      present keeps its node. */
  function InsertFirst(nodes: map<Coor, int>, n: Node): (r: map<Coor, int>)
    ensures r.Keys == nodes.Keys + {n.coor}
    ensures forall c :: c in nodes ==> r[c] == nodes[c]
    ensures n.coor !in nodes ==> r[n.coor] == n.steps
  {
    if n.coor in nodes then nodes else nodes[n.coor := n.steps]
  }

  /** Collecting nodes into a set, left to right. */
  function Collect(nodes: map<Coor, int>, ns: seq<Node>): map<Coor, int>
    decreases |ns|
  {
    if |ns| == 0 then nodes else Collect(InsertFirst(nodes, ns[0]), ns[1..])
  }

  /** `wire2` from move `i` on, continuing from `current` after `count` steps,
      with the nodes collected so far. */
  function Wire2From(moves: seq<Move>, i: nat, current: Coor, count: int, nodes: map<Coor, int>)
    : (r: Result<map<Coor, int>, WireError>)
    requires i <= |moves|
    decreases |moves| - i
  {
    if i == |moves| then Success(nodes)
    else
      var ns := ToNodes(moves[i], current, count);
      if |ns| == 0 then Failure(EmptyMove(i))
      else Wire2From(moves, i + 1, ns[|ns| - 1].coor, count + |ns|, Collect(nodes, ns))
  }

  lemma {:induction false} Wire2FromFails(moves: seq<Move>, i: nat, current: Coor, count: int, nodes: map<Coor, int>)
    requires i <= |moves|
    ensures FailsAtFirstEmpty(moves, i, Wire2From(moves, i, current, count, nodes))
    decreases |moves| - i
  {
    if i < |moves| && moves[i].steps > 0 {
      var ns := ToNodes(moves[i], current, count);
      Wire2FromFails(moves, i + 1, ns[|ns| - 1].coor, count + |ns|, Collect(nodes, ns));
    }
  }

  /** `wire2`: every visited point with the step count of its first visit. */
  function Wire2(moves: seq<Move>): Result<map<Coor, int>, WireError> {
    Wire2From(moves, 0, Origin, 0, map[])
  }

  /** Both `wire` and `wire2` fail exactly when some move has no steps (the
      `expect` on its last point), naming the first such move. */
  lemma WiresFail(moves: seq<Move>)
    ensures Wire(moves).Success? <==> forall j :: 0 <= j < |moves| ==> moves[j].steps > 0
    ensures Wire2(moves).Success? <==> forall j :: 0 <= j < |moves| ==> moves[j].steps > 0
    ensures Wire(moves).Failure? ==>
              && Wire(moves).error.EmptyMove? && Wire(moves).error.index < |moves|
              && moves[Wire(moves).error.index].steps <= 0
              && forall j :: 0 <= j < Wire(moves).error.index ==> moves[j].steps > 0
    ensures Wire2(moves).Failure? ==> Wire2(moves).error == Wire(moves).error
  {
    WireFromFails(moves, 0, Origin);
    Wire2FromFails(moves, 0, Origin, 0, map[]);
  }

  // ---------------------------------------------------------------------
  // Reference: the path in closed form

  /** Where the wire stands before move `i`: the origin plus the sum of the
      displacements of the moves before it. */
  function Start(moves: seq<Move>, i: nat): Coor
    requires i <= |moves|
  {
    if i == 0 then Origin
    else
      var s := Start(moves, i - 1);
      Coor(s.x + moves[i - 1].steps * DX(moves[i - 1].direction), s.y + moves[i - 1].steps * DY(moves[i - 1].direction))
  }

  /** The sequence of points visited by the first `n` moves, each move's
      points laid out from its closed-form start. */
  function PathUpTo(moves: seq<Move>, n: nat): seq<Coor>
    requires n <= |moves|
  {
    if n == 0 then [] else PathUpTo(moves, n - 1) + ToCoord(moves[n - 1], Start(moves, n - 1))
  }

  function Path(moves: seq<Move>): seq<Coor> {
    PathUpTo(moves, |moves|)
  }

  /** Geometric reference: `c` lies on the segment walked by `m` from `s`,
      excluding `s` itself. */
  predicate OnSegment(c: Coor, s: Coor, m: Move) {
    match m.direction
    case R => c.y == s.y && s.x < c.x <= s.x + m.steps
    case L => c.y == s.y && s.x - m.steps <= c.x < s.x
    case U => c.x == s.x && s.y < c.y <= s.y + m.steps
    case D => c.x == s.x && s.y - m.steps <= c.y < s.y
  }

  /** The points of a move are exactly the points of its segment. */
  lemma ToCoordOnSegment(m: Move, s: Coor, c: Coor)
    ensures c in ToCoord(m, s) <==> OnSegment(c, s, m)
  {
    var ps := ToCoord(m, s);
    if OnSegment(c, s, m) {
      var k := match m.direction
        case R => c.x - s.x
        case L => s.x - c.x
        case U => c.y - s.y
        case D => s.y - c.y;
      assert ps[k - 1] == c;
    }
  }

  /** A move of positive steps ends at the start of the next. */
  lemma LastPointIsNextStart(moves: seq<Move>, i: nat)
    requires i < |moves| && moves[i].steps > 0
    ensures var ps := ToCoord(moves[i], Start(moves, i)); ps[|ps| - 1] == Start(moves, i + 1)
  {
  }

  /** `c` lies on the segment of move `j` of the wire. */
  predicate OnMove(moves: seq<Move>, j: nat, c: Coor)
    requires j < |moves|
  {
    OnSegment(c, Start(moves, j), moves[j])
  }

  /** A point is on the path exactly when it is on the segment of some move. */
  lemma {:induction false} PathOnSegments(moves: seq<Move>, n: nat, c: Coor)
    requires n <= |moves|
    ensures c in PathUpTo(moves, n) <==> exists j :: 0 <= j < n && OnMove(moves, j, c)
  {
    if n > 0 {
      var p, ps := PathUpTo(moves, n - 1), ToCoord(moves[n - 1], Start(moves, n - 1));
      assert PathUpTo(moves, n) == p + ps;
      PathOnSegments(moves, n - 1, c);
      ToCoordOnSegment(moves[n - 1], Start(moves, n - 1), c);
      if c in p {
        var j :| 0 <= j < n - 1 && OnMove(moves, j, c);
        assert 0 <= j < n && OnMove(moves, j, c);
      } else if c in ps {
        assert OnMove(moves, n - 1, c);
      } else {
        forall j | 0 <= j < n
          ensures !OnMove(moves, j, c)
        {
        }
      }
    }
  }

  lemma {:induction false} WireFromPath(moves: seq<Move>, i: nat, s: set<Coor>)
    requires i <= |moves|
    requires WireFrom(moves, i, Start(moves, i)) == Success(s)
    ensures Elems(PathUpTo(moves, i)) + s == Elems(Path(moves))
    decreases |moves| - i
  {
    if i < |moves| {
      var ps := ToCoord(moves[i], Start(moves, i));
      LastPointIsNextStart(moves, i);
      var rest := WireFrom(moves, i + 1, Start(moves, i + 1)).value;
      assert s == Elems(ps) + rest;
      WireFromPath(moves, i + 1, rest);
      assert Elems(PathUpTo(moves, i + 1)) == Elems(PathUpTo(moves, i)) + Elems(ps) by {
        assert PathUpTo(moves, i + 1) == PathUpTo(moves, i) + ps;
      }
    }
  }

  /** `wire` visits exactly the points of the path, and so exactly the points
      lying on the segment of some move. */
  lemma WireIsPath(moves: seq<Move>, s: set<Coor>)
    requires Wire(moves) == Success(s)
    ensures s == Elems(Path(moves))
    ensures forall c :: c in s <==> exists j :: 0 <= j < |moves| && OnMove(moves, j, c)
  {
    WireFromPath(moves, 0, s);
    forall c {
      PathOnSegments(moves, |moves|, c);
    }
  }

  // ---------------------------------------------------------------------
  // Reference: first visits

  /** The index of the first occurrence of `c` in `p`. */
  function FirstIndex(p: seq<Coor>, c: Coor): (r: nat)
    requires c in p
    ensures r < |p| && p[r] == c
    ensures forall j :: 0 <= j < r ==> p[j] != c
  {
    if p[0] == c then 0 else 1 + FirstIndex(p[1..], c)
  }

  lemma FirstIndexUnique(p: seq<Coor>, c: Coor, r: nat)
    requires r < |p| && p[r] == c
    requires forall j :: 0 <= j < r ==> p[j] != c
    ensures FirstIndex(p, c) == r
  {
  }

  /** A node set records path `p` when it holds each point of `p` with one
      more than the index of its first occurrence, and nothing else. */
  predicate Records(nodes: map<Coor, int>, p: seq<Coor>) {
    && nodes.Keys == Elems(p)
    && forall c :: c in nodes ==> nodes[c] == FirstIndex(p, c) + 1
  }

  lemma RecordsInsert(nodes: map<Coor, int>, p: seq<Coor>, c: Coor)
    requires Records(nodes, p)
    ensures Records(InsertFirst(nodes, Node(c, |p| + 1)), p + [c])
  {
    var r := InsertFirst(nodes, Node(c, |p| + 1));
    var q := p + [c];
    assert r.Keys == Elems(q);
    forall e | e in r
      ensures r[e] == FirstIndex(q, e) + 1
    {
      if e in p {
        var f := FirstIndex(p, e);
        assert q[f] == e;
        FirstIndexUnique(q, e, f);
      } else {
        assert q[|p|] == e;
        FirstIndexUnique(q, e, |p|);
      }
    }
  }

  /** Nodes numbered consecutively from `base + 1` stay numbered
      consecutively from `base + 2` once the first is dropped. */
  lemma NumberedTail(ns: seq<Node>, cs: seq<Coor>, base: int)
    requires |ns| == |cs| > 0
    requires forall k :: 0 <= k < |ns| ==> ns[k] == Node(cs[k], base + k + 1)
    ensures forall k :: 0 <= k < |ns| - 1 ==> ns[1..][k] == Node(cs[1..][k], base + 1 + k + 1)
  {
    forall k | 0 <= k < |ns| - 1
      ensures ns[1..][k] == Node(cs[1..][k], base + 1 + k + 1)
    {
      assert ns[1..][k] == ns[k + 1];
    }
  }

  lemma {:induction false} RecordsCollect(nodes: map<Coor, int>, p: seq<Coor>, ns: seq<Node>, cs: seq<Coor>)
    requires Records(nodes, p)
    requires |ns| == |cs|
    requires forall k :: 0 <= k < |ns| ==> ns[k] == Node(cs[k], |p| + k + 1)
    ensures Records(Collect(nodes, ns), p + cs)
    decreases |ns|
  {
    if |ns| == 0 {
      assert p + cs == p;
    } else {
      RecordsInsert(nodes, p, cs[0]);
      var q := p + [cs[0]];
      assert ns[0] == Node(cs[0], |p| + 1);
      NumberedTail(ns, cs, |p|);
      RecordsCollect(InsertFirst(nodes, ns[0]), q, ns[1..], cs[1..]);
      assert Collect(nodes, ns) == Collect(InsertFirst(nodes, ns[0]), ns[1..]);
      assert q + cs[1..] == p + cs;
    }
  }

  lemma Wire2FromUnfold(moves: seq<Move>, i: nat, current: Coor, count: int, nodes: map<Coor, int>, next: Coor, count': int)
    requires i < |moves| && moves[i].steps > 0
    requires Shift(current, moves[i].direction, moves[i].steps) == next
    requires count' == count + moves[i].steps
    ensures Wire2From(moves, i, current, count, nodes)
              == Wire2From(moves, i + 1, next, count', Collect(nodes, ToNodes(moves[i], current, count)))
  {
    var ns := ToNodes(moves[i], current, count);
    assert ns[|ns| - 1].coor == next;
  }

  /** One move of `wire2` takes a node set recording the path so far to one
      recording the path through that move. */
  lemma Wire2FromStep(moves: seq<Move>, i: nat, nodes: map<Coor, int>, m: map<Coor, int>)
    requires i < |moves|
    requires Records(nodes, PathUpTo(moves, i))
    requires Wire2From(moves, i, Start(moves, i), |PathUpTo(moves, i)|, nodes) == Success(m)
    ensures var ns := ToNodes(moves[i], Start(moves, i), |PathUpTo(moves, i)|);
            && Records(Collect(nodes, ns), PathUpTo(moves, i + 1))
            && Wire2From(moves, i + 1, Start(moves, i + 1), |PathUpTo(moves, i + 1)|, Collect(nodes, ns)) == Success(m)
  {
    var p := PathUpTo(moves, i);
    var cs := ToCoord(moves[i], Start(moves, i));
    var ns := ToNodes(moves[i], Start(moves, i), |p|);
    assert PathUpTo(moves, i + 1) == p + cs;
    assert Records(Collect(nodes, ns), PathUpTo(moves, i + 1)) by {
      RecordsCollect(nodes, p, ns, cs);
    }
    LastPointIsNextStart(moves, i);
    Wire2FromUnfold(moves, i, Start(moves, i), |p|, nodes, Start(moves, i + 1), |PathUpTo(moves, i + 1)|);
  }

  lemma {:induction false} Wire2FromPath(moves: seq<Move>, i: nat, nodes: map<Coor, int>, m: map<Coor, int>)
    requires i <= |moves|
    requires Records(nodes, PathUpTo(moves, i))
    requires Wire2From(moves, i, Start(moves, i), |PathUpTo(moves, i)|, nodes) == Success(m)
    ensures Records(m, Path(moves))
    decreases |moves| - i
  {
    if i < |moves| {
      Wire2FromStep(moves, i, nodes, m);
      var ns := ToNodes(moves[i], Start(moves, i), |PathUpTo(moves, i)|);
      Wire2FromPath(moves, i + 1, Collect(nodes, ns), m);
    }
  }

  /** `wire2` records every visited point with the number of steps to its
      first visit: one more than its first index on the path. Its points are
      those of `wire`. */
  lemma Wire2FirstVisits(moves: seq<Move>, m: map<Coor, int>)
    requires Wire2(moves) == Success(m)
    ensures m.Keys == Elems(Path(moves))
    ensures Wire(moves) == Success(m.Keys)
    ensures forall c :: c in m ==> m[c] == FirstIndex(Path(moves), c) + 1
    ensures forall c, j :: c in m && 0 <= j < |Path(moves)| && Path(moves)[j] == c ==> m[c] <= j + 1
  {
    Wire2FromPath(moves, 0, map[], m);
    WiresFail(moves);
    var s := Wire(moves).value;
    WireIsPath(moves, s);
  }

  // ---------------------------------------------------------------------
  // The examples of the puzzle

  lemma ToCoordExamples()
    ensures ToCoord(Move(R, 2), Origin) == [Coor(1, 0), Coor(2, 0)]
    ensures ToCoord(Move(L, 2), Origin) == [Coor(-1, 0), Coor(-2, 0)]
    ensures ToCoord(Move(U, 2), Origin) == [Coor(0, 1), Coor(0, 2)]
    ensures ToCoord(Move(D, 2), Origin) == [Coor(0, -1), Coor(0, -2)]
  {
  }

  lemma ParseExample()
    ensures ParseMove("R2") == Success(Move(R, 2))
  {
    assert "R2"[1..] == "2";
  }

  /** Step counts follow the grammar of `i32`, not the rendering: a plus
      sign and leading zeros are accepted. */
  lemma ParseMoveAcceptsNumerals()
    ensures ParseMove("R+2") == Success(Move(R, 2))
    ensures ParseMove("U007") == Success(Move(U, 7))
  {
    assert "R+2"[1..] == "+2" && Unsigned("+2") == "2";
    assert "U007"[1..] == "007" && Unsigned("007") == "007";
    assert DigitsValue("007") == 7 by {
      assert "007"[..2] == "00" && "00"[..1] == "0" && "0"[..0] == "";
    }
  }

  /** A trailing letter or a bare sign is `BadSteps`, the `unwrap` panic;
      an unknown letter is `UnknownDirection`. */
  lemma ParseMoveRejects()
    ensures ParseMove("L2a") == Failure(BadSteps)
    ensures ParseMove("D-") == Failure(BadSteps)
    ensures ParseMove("X2") == Failure(UnknownDirection)
  {
    assert "L2a"[1..] == "2a" && !IsDigit("2a"[1]);
    assert "D-"[1..] == "-";
  }

  /** A second node at the same point does not replace the first. */
  lemma NodesSetExample()
    ensures InsertFirst(InsertFirst(map[], Node(Origin, 0)), Node(Origin, 1)) == map[Origin := 0]
  {
  }
}

=== FILE: day4.dfy ===
/** Password candidates: six-digit numbers in a range whose decimal digits
    never decrease and contain a pair of equal adjacent digits (part one),
    or a digit value that occurs exactly twice (part two). */
module Password {

  /** The decimal digits of `n`, most significant first, as `to_string` writes them. */
  function Digits(n: nat): (ds: seq<nat>)
    ensures |ds| >= 1
    ensures forall i :: 0 <= i < |ds| ==> ds[i] < 10
    ensures |ds| > 1 ==> ds[0] != 0
    decreases n
  {
    if n < 10 then [n] else Digits(n / 10) + [n % 10]
  }

  /** The number a digit sequence denotes. */
  function FromDigits(ds: seq<nat>): nat
    decreases |ds|
  {
    if |ds| == 0 then 0 else FromDigits(ds[..|ds| - 1]) * 10 + ds[|ds| - 1]
  }

  /** Reading the digits back gives the number. */
  lemma {:induction false} FromDigitsDigits(n: nat)
    ensures FromDigits(Digits(n)) == n
    decreases n
  {
    if n >= 10 {
      FromDigitsDigits(n / 10);
      var ds := Digits(n);
      assert ds[..|ds| - 1] == Digits(n / 10);
    }
  }

  // ---------------------------------------------------------------- reference predicates

  /** Every digit is at most every later digit. */
  predicate NonDecreasing(ds: seq<nat>) {
    forall i, j :: 0 <= i < j < |ds| ==> ds[i] <= ds[j]
  }

  /** Some two consecutive digits are equal. */
  predicate HasDouble(ds: seq<nat>) {
    exists i :: 0 <= i < |ds| - 1 && ds[i] == ds[i + 1]
  }

  /** Some digit value occurs exactly twice in the whole number. */
  predicate HasExactPair(ds: seq<nat>) {
    exists d :: 0 <= d < 10 && multiset(ds)[d] == 2
  }

  // ---------------------------------------------------------------- the checks

  /** Appending a digit no smaller than the last keeps digits non-decreasing. */
  lemma NonDecreasingExtend(ds: seq<nat>, x: nat)
    requires NonDecreasing(ds) && (|ds| == 0 || ds[|ds| - 1] <= x)
    ensures NonDecreasing(ds + [x])
  {
    var t := ds + [x];
    forall a, c | 0 <= a < c < |t|
      ensures t[a] <= t[c]
    {
      if c == |ds| && a < |ds| - 1 {
        assert ds[a] <= ds[|ds| - 1];
      }
    }
  }

  /** `check_not_decreasing`: compares each digit with its predecessor. */
  method CheckNotDecreasing(n: nat) returns (b: bool)
    ensures b <==> NonDecreasing(Digits(n))
  {
    var ds := Digits(n);
    var i := 1;
    while i < |ds|
      invariant 1 <= i <= |ds|
      invariant NonDecreasing(ds[..i])
    {
      if ds[i] < ds[i - 1] {
        return false;
      }
      assert ds[..i + 1] == ds[..i] + [ds[i]];
      NonDecreasingExtend(ds[..i], ds[i]);
      i := i + 1;
    }
    assert ds[..i] == ds;
    return true;
  }

  /** `check_two_adjacent`: looks for a digit equal to its successor. */
  method CheckTwoAdjacent(n: nat) returns (b: bool)
    ensures b <==> HasDouble(Digits(n))
  {
    var ds := Digits(n);
    var i := 0;
    while i < |ds| - 1
      invariant 0 <= i <= |ds| - 1
      invariant forall k :: 0 <= k < i ==> ds[k] != ds[k + 1]
    {
      if ds[i] == ds[i + 1] {
        return true;
      }
      i := i + 1;
    }
    return false;
  }

  /** How many times each digit value occurs in `ds`. */
  method Tally(ds: seq<nat>) returns (tally: seq<nat>)
    requires forall i :: 0 <= i < |ds| ==> ds[i] < 10
    ensures |tally| == 10
    ensures forall d :: 0 <= d < 10 ==> tally[d] == multiset(ds)[d]
  {
    tally := [0, 0, 0, 0, 0, 0, 0, 0, 0, 0];
    var i := 0;
    while i < |ds|
      invariant 0 <= i <= |ds| && |tally| == 10
      invariant forall d :: 0 <= d < 10 ==> tally[d] == multiset(ds[..i])[d]
    {
      assert ds[..i + 1] == ds[..i] + [ds[i]];
      tally := tally[ds[i] := tally[ds[i]] + 1];
      i := i + 1;
    }
    assert ds[..i] == ds;
  }

  /** `check_at_most_two_adjacent`: tallies each digit value, then asks
      whether some tally is exactly 2. */
  method CheckAtMostTwoAdjacent(n: nat) returns (b: bool)
    ensures b <==> HasExactPair(Digits(n))
  {
    var tally := Tally(Digits(n));
    b := false;
    var d := 0;
    while d < 10
      invariant 0 <= d <= 10
      invariant b <==> exists e :: 0 <= e < d && tally[e] == 2
    {
      b := b || tally[d] == 2;
      d := d + 1;
    }
  }

  // ---------------------------------------------------------------- relating the checks

  /** A value occurring at least twice occurs at two distinct positions. */
  lemma {:induction false} TwoPositions(ds: seq<nat>, d: nat)
    requires multiset(ds)[d] >= 2
    ensures exists i, j :: 0 <= i < j < |ds| && ds[i] == d && ds[j] == d
    decreases |ds|
  {
    var last := ds[|ds| - 1];
    assert ds == ds[..|ds| - 1] + [last];
    if last == d {
      assert multiset(ds[..|ds| - 1])[d] >= 1;
      assert d in ds[..|ds| - 1];
      var i :| 0 <= i < |ds| - 1 && ds[..|ds| - 1][i] == d;
      assert ds[i] == d && ds[|ds| - 1] == d;
    } else {
      TwoPositions(ds[..|ds| - 1], d);
      var i, j :| 0 <= i < j < |ds| - 1 && ds[..|ds| - 1][i] == d && ds[..|ds| - 1][j] == d;
      assert ds[i] == d && ds[j] == d;
    }
  }

  /** In non-decreasing digits, a value occurring exactly twice forms a
      pair of equal adjacent digits. */
  lemma ExactPairIsDouble(ds: seq<nat>)
    requires NonDecreasing(ds) && HasExactPair(ds)
    ensures HasDouble(ds)
  {
    var d :| 0 <= d < 10 && multiset(ds)[d] == 2;
    TwoPositions(ds, d);
    var i, j :| 0 <= i < j < |ds| && ds[i] == d && ds[j] == d;
    assert ds[i] <= ds[i + 1];
    assert ds[i + 1] <= ds[j] || i + 1 == j;
  }

  // ---------------------------------------------------------------- counting

  /** Part one's condition on a number. */
  predicate Valid1(n: nat) {
    NonDecreasing(Digits(n)) && HasDouble(Digits(n))
  }

  /** Part two's condition on a number. */
  predicate Valid2(n: nat) {
    NonDecreasing(Digits(n)) && HasExactPair(Digits(n))
  }

  /** How many numbers in `lo..hi` (inclusive) satisfy `p`. */
  function CountIn(lo: nat, hi: int, p: nat -> bool): (c: nat)
    ensures lo <= hi ==> c <= hi - lo + 1
    ensures lo > hi ==> c == 0
    decreases hi + 1 - lo
  {
    if lo > hi then 0 else CountIn(lo, hi - 1, p) + (if p(hi) then 1 else 0)
  }

  /** A weaker condition counts at least as many numbers. */
  lemma {:induction false} CountInMonotone(lo: nat, hi: int, p: nat -> bool, q: nat -> bool)
    requires forall n: nat :: lo <= n <= hi && p(n) ==> q(n)
    ensures CountIn(lo, hi, p) <= CountIn(lo, hi, q)
    decreases hi + 1 - lo
  {
    if lo <= hi {
      CountInMonotone(lo, hi - 1, p, q);
    }
  }

  /** Every number part two accepts, part one accepts. */
  lemma Valid2IsValid1(n: nat)
    ensures Valid2(n) ==> Valid1(n)
  {
    if Valid2(n) {
      ExactPairIsDouble(Digits(n));
    }
  }

  /** `solve1`: counts the numbers of the range that pass both checks. */
  method Solve1(lower: nat, upper: nat) returns (count: nat)
    ensures count == CountIn(lower, upper, Valid1)
    ensures count <= if lower <= upper then upper - lower + 1 else 0
  {
    count := 0;
    if lower > upper {
      return;
    }
    var n := lower;
    while n <= upper
      invariant lower <= n <= upper + 1
      invariant count == CountIn(lower, n - 1, Valid1)
    {
      var a := CheckNotDecreasing(n);
      var b := CheckTwoAdjacent(n);
      if a && b {
        count := count + 1;
      }
      n := n + 1;
    }
  }

  /** `solve2`: counts the numbers of the range that pass the digit-order
      check and the exact-pair check. */
  method Solve2(lower: nat, upper: nat) returns (count: nat)
    ensures count == CountIn(lower, upper, Valid2)
    ensures count <= if lower <= upper then upper - lower + 1 else 0
  {
    count := 0;
    if lower > upper {
      return;
    }
    var n := lower;
    while n <= upper
      invariant lower <= n <= upper + 1
      invariant count == CountIn(lower, n - 1, Valid2)
    {
      var a := CheckNotDecreasing(n);
      var b := CheckAtMostTwoAdjacent(n);
      if a && b {
        count := count + 1;
      }
      n := n + 1;
    }
  }

  /** Part two never counts more than part one. */
  lemma Solve2AtMostSolve1(lower: nat, upper: nat)
    ensures CountIn(lower, upper, Valid2) <= CountIn(lower, upper, Valid1)
  {
    forall n | lower <= n <= upper && Valid2(n)
      ensures Valid1(n)
    {
      Valid2IsValid1(n);
    }
    CountInMonotone(lower, upper, Valid2, Valid1);
  }

  /** The digits of a six-digit number, one division at a time. */
  lemma SixDigits(a: nat, b: nat, c: nat, d: nat, e: nat, f: nat)
    requires 0 < a < 10 && b < 10 && c < 10 && d < 10 && e < 10 && f < 10
    ensures Digits(a * 100000 + b * 10000 + c * 1000 + d * 100 + e * 10 + f) == [a, b, c, d, e, f]
  {
    var n1 := a;
    var n2 := n1 * 10 + b;
    var n3 := n2 * 10 + c;
    var n4 := n3 * 10 + d;
    var n5 := n4 * 10 + e;
    var n6 := n5 * 10 + f;
    assert n2 / 10 == n1 && n2 % 10 == b;
    assert n3 / 10 == n2 && n3 % 10 == c;
    assert n4 / 10 == n3 && n4 % 10 == d;
    assert n5 / 10 == n4 && n5 % 10 == e;
    assert n6 / 10 == n5 && n6 % 10 == f;
    assert Digits(n2) == [a, b];
    assert Digits(n3) == [a, b, c];
    assert Digits(n4) == [a, b, c, d];
    assert Digits(n5) == [a, b, c, d, e];
    assert n6 == a * 100000 + b * 10000 + c * 1000 + d * 100 + e * 10 + f;
  }

  /** Order between neighbours is order between all pairs. */
  lemma {:induction false} AdjacentOrdered(ds: seq<nat>)
    requires forall i :: 0 <= i < |ds| - 1 ==> ds[i] <= ds[i + 1]
    ensures NonDecreasing(ds)
    decreases |ds|
  {
    if |ds| > 0 {
      var init := ds[..|ds| - 1];
      AdjacentOrdered(init);
      NonDecreasingExtend(init, ds[|ds| - 1]);
      assert init + [ds[|ds| - 1]] == ds;
    }
  }

  // The examples of the puzzle's tests, one number per lemma.
  lemma NonDecreasing111111()
    ensures NonDecreasing(Digits(111111))
  {
    SixDigits(1, 1, 1, 1, 1, 1);
    AdjacentOrdered([1, 1, 1, 1, 1, 1]);
  }

  lemma NotNonDecreasing223450()
    ensures !NonDecreasing(Digits(223450))
  {
    SixDigits(2, 2, 3, 4, 5, 0);
    assert Digits(223450)[4] > Digits(223450)[5];
  }

  lemma NonDecreasing122345()
    ensures NonDecreasing(Digits(122345))
  {
    SixDigits(1, 2, 2, 3, 4, 5);
    AdjacentOrdered([1, 2, 2, 3, 4, 5]);
  }

  lemma NotNonDecreasing123234()
    ensures !NonDecreasing(Digits(123234))
  {
    SixDigits(1, 2, 3, 2, 3, 4);
    assert Digits(123234)[2] > Digits(123234)[3];
  }

  lemma NonDecreasing123789()
    ensures NonDecreasing(Digits(123789))
  {
    SixDigits(1, 2, 3, 7, 8, 9);
    AdjacentOrdered([1, 2, 3, 7, 8, 9]);
  }

  lemma NotNonDecreasing135676()
    ensures !NonDecreasing(Digits(135676))
  {
    SixDigits(1, 3, 5, 6, 7, 6);
    assert Digits(135676)[4] > Digits(135676)[5];
  }

  lemma HasDouble122345()
    ensures HasDouble(Digits(122345))
  {
    SixDigits(1, 2, 2, 3, 4, 5);
    assert Digits(122345)[1] == Digits(122345)[2];
  }

  lemma HasDouble123455()
    ensures HasDouble(Digits(123455))
  {
    SixDigits(1, 2, 3, 4, 5, 5);
    assert Digits(123455)[4] == Digits(123455)[5];
  }

  lemma NoDouble123456()
    ensures !HasDouble(Digits(123456))
  {
    SixDigits(1, 2, 3, 4, 5, 6);
  }

  lemma NoDouble124589()
    ensures !HasDouble(Digits(124589))
  {
    SixDigits(1, 2, 4, 5, 8, 9);
  }

  lemma HasExactPair122345()
    ensures HasExactPair(Digits(122345))
  {
    SixDigits(1, 2, 2, 3, 4, 5);
    assert multiset([1, 2, 2, 3, 4, 5])[2] == 2;
  }

  lemma HasExactPair111122()
    ensures HasExactPair(Digits(111122))
  {
    SixDigits(1, 1, 1, 1, 2, 2);
    assert multiset([1, 1, 1, 1, 2, 2])[2] == 2;
  }

  lemma NoExactPair111123()
    ensures !HasExactPair(Digits(111123))
  {
    SixDigits(1, 1, 1, 1, 2, 3);
    assert multiset([1, 1, 1, 1, 2, 3]) == multiset{1, 1, 1, 1, 2, 3};
  }

  lemma NoExactPair123444()
    ensures !HasExactPair(Digits(123444))
  {
    SixDigits(1, 2, 3, 4, 4, 4);
    assert multiset([1, 2, 3, 4, 4, 4]) == multiset{1, 2, 3, 4, 4, 4};
  }
}

=== FILE: day6.dfy ===
/** Orbit maps. Each input line `A)B` says that B orbits A. The forward
    graph maps every body to the bodies orbiting it; the total number of
    direct and indirect orbits is the sum of every body's depth below the
    root. The undirected graph links both ways, and a breadth-first search
    counts the orbital transfers between two bodies. */
module Orbits {
  import opened Results

  type Graph<N> = map<N, seq<N>>

  /** An already split input line `from)to`. */
  type Orbit<N> = (N, N)

  // ---------------------------------------------------------------------
  // Building the graphs

  /** `graph.entry(key).or_insert(vec![]).push(value)`. */
  function Push<N(==)>(graph: Graph<N>, key: N, value: N): (r: Graph<N>)
    ensures r.Keys == graph.Keys + {key}
    ensures forall k :: k in graph && k != key ==> r[k] == graph[k]
    ensures r[key] == (if key in graph then graph[key] else []) + [value]
  {
    graph[key := (if key in graph then graph[key] else []) + [value]]
  }

  /** Reference: the bodies orbiting `key`, in input order. */
  function Targets<N(==)>(orbits: seq<Orbit<N>>, key: N): seq<N>
    decreases |orbits|
  {
    if |orbits| == 0 then []
    else
      var last := orbits[|orbits| - 1];
      Targets(orbits[..|orbits| - 1], key) + (if last.0 == key then [last.1] else [])
  }

  /** Reference: the neighbours of `key` in input order, the orbited body
      before the orbiting one on each line. */
  function Neighbours<N(==)>(orbits: seq<Orbit<N>>, key: N): seq<N>
    decreases |orbits|
  {
    if |orbits| == 0 then []
    else
      var last := orbits[|orbits| - 1];
      Neighbours(orbits[..|orbits| - 1], key)
        + (if last.0 == key then [last.1] else [])
        + (if last.1 == key then [last.0] else [])
  }

  function Sources<N(==)>(orbits: seq<Orbit<N>>): set<N> {
    set o | o in orbits :: o.0
  }

  function Bodies<N(==)>(orbits: seq<Orbit<N>>): set<N> {
    (set o | o in orbits :: o.0) + (set o | o in orbits :: o.1)
  }

  /** `parse_input1` over already split lines: only the forward edge. */
  method ParseForward<N(==)>(orbits: seq<Orbit<N>>) returns (graph: Graph<N>)
    ensures graph.Keys == Sources(orbits)
    ensures forall k :: k in graph ==> graph[k] == Targets(orbits, k)
  {
    graph := map[];
    var i := 0;
    while i < |orbits|
      invariant 0 <= i <= |orbits|
      invariant graph.Keys == Sources(orbits[..i])
      invariant forall k :: k in graph ==> graph[k] == Targets(orbits[..i], k)
    {
      var (from, to) := orbits[i];
      assert orbits[..i + 1][..i] == orbits[..i];
      assert Sources(orbits[..i + 1]) == Sources(orbits[..i]) + {from} by {
        assert orbits[..i + 1] == orbits[..i] + [orbits[i]];
      }
      var next := Push(graph, from, to);
      forall k | k in next
        ensures next[k] == Targets(orbits[..i + 1], k)
      {
        if k !in graph {
          TargetsOfStranger(orbits[..i], k);
        }
      }
      graph := next;
      i := i + 1;
    }
    assert orbits[..i] == orbits;
  }

  /** `parse_input2` over already split lines: both directions. */
  method ParseBoth<N(==)>(orbits: seq<Orbit<N>>) returns (graph: Graph<N>)
    ensures graph.Keys == Bodies(orbits)
    ensures forall k :: k in graph ==> graph[k] == Neighbours(orbits, k)
  {
    graph := map[];
    var i := 0;
    while i < |orbits|
      invariant 0 <= i <= |orbits|
      invariant graph.Keys == Bodies(orbits[..i])
      invariant forall k :: k in graph ==> graph[k] == Neighbours(orbits[..i], k)
    {
      assert orbits[..i + 1] == orbits[..i] + [orbits[i]];
      PushBothStep(orbits[..i], orbits[i], graph);
      graph := Push(Push(graph, orbits[i].0, orbits[i].1), orbits[i].1, orbits[i].0);
      i := i + 1;
    }
    assert orbits[..i] == orbits;
  }

  /** One line of `parse_input2` extends the undirected graph of the lines
      before it to the graph of the lines up to it. */
  lemma PushBothStep<N>(prefix: seq<Orbit<N>>, o: Orbit<N>, graph: Graph<N>)
    requires graph.Keys == Bodies(prefix)
    requires forall k :: k in graph ==> graph[k] == Neighbours(prefix, k)
    ensures var next := Push(Push(graph, o.0, o.1), o.1, o.0);
            && next.Keys == Bodies(prefix + [o])
            && forall k :: k in next ==> next[k] == Neighbours(prefix + [o], k)
  {
    var (from, to) := o;
    var all := prefix + [o];
    assert all[..|all| - 1] == prefix;
    assert Bodies(all) == Bodies(prefix) + {from, to};
    var next := Push(Push(graph, from, to), to, from);
    forall k | k in next
      ensures next[k] == Neighbours(all, k)
    {
      PushBothAt(prefix, o, graph, k);
    }
  }

  /** The entry of one body after a line of `parse_input2`. */
  lemma PushBothAt<N>(prefix: seq<Orbit<N>>, o: Orbit<N>, graph: Graph<N>, k: N)
    requires graph.Keys == Bodies(prefix)
    requires forall k :: k in graph ==> graph[k] == Neighbours(prefix, k)
    requires k in graph || k == o.0 || k == o.1
    ensures Push(Push(graph, o.0, o.1), o.1, o.0)[k] == Neighbours(prefix + [o], k)
  {
    var all := prefix + [o];
    assert all[..|all| - 1] == prefix;
    if k !in graph {
      NeighboursOfStranger(prefix, k);
    }
  }

  /** A body that orbits nothing has no targets. */
  lemma {:induction false} TargetsOfStranger<N>(orbits: seq<Orbit<N>>, key: N)
    requires key !in Sources(orbits)
    ensures Targets(orbits, key) == []
    decreases |orbits|
  {
    if |orbits| > 0 {
      var init := orbits[..|orbits| - 1];
      assert Sources(init) <= Sources(orbits) by {
        forall o | o in init ensures o in orbits { }
      }
      TargetsOfStranger(init, key);
    }
  }

  /** A body on no line has no neighbours. */
  lemma {:induction false} NeighboursOfStranger<N>(orbits: seq<Orbit<N>>, key: N)
    requires key !in Bodies(orbits)
    ensures Neighbours(orbits, key) == []
    decreases |orbits|
  {
    if |orbits| > 0 {
      var init := orbits[..|orbits| - 1];
      assert Bodies(init) <= Bodies(orbits) by {
        forall o | o in init ensures o in orbits { }
      }
      NeighboursOfStranger(init, key);
    }
  }

  /** The undirected graph is symmetric: `b` neighbours `a` exactly when `a`
      neighbours `b`. */
  lemma {:induction false} NeighboursSymmetric<N>(orbits: seq<Orbit<N>>, a: N, b: N)
    ensures b in Neighbours(orbits, a) <==> a in Neighbours(orbits, b)
    decreases |orbits|
  {
    if |orbits| > 0 {
      NeighboursSymmetric(orbits[..|orbits| - 1], a, b);
    }
  }

  /** Every forward edge is also an undirected one. */
  lemma {:induction false} TargetsAreNeighbours<N>(orbits: seq<Orbit<N>>, a: N, b: N)
    requires b in Targets(orbits, a)
    ensures b in Neighbours(orbits, a)
    decreases |orbits|
  {
    var init := orbits[..|orbits| - 1];
    if b in Targets(init, a) {
      TargetsAreNeighbours(init, a, b);
    }
  }

  // ---------------------------------------------------------------------
  // Counting orbits

  /** A witness that the forward graph has no cycle: every child that has an
      entry ranks strictly below its parent. */
  predicate Ranked<N(==)>(graph: Graph<N>, rank: map<N, nat>) {
    forall k :: k in graph ==> k in rank && forall c :: c in graph[k] && c in graph ==> c in rank && rank[c] < rank[k]
  }

  function Height<N(==)>(graph: Graph<N>, rank: map<N, nat>, node: N): nat
    requires Ranked(graph, rank)
  {
    if node in graph then rank[node] + 1 else 0
  }

  /** `calc_weight`: the depth of `node` plus the weights of its children one
      level deeper; a body with no entry weighs its depth alone. */
  function CalcWeight<N(==)>(graph: Graph<N>, rank: map<N, nat>, node: N, depth: int): (r: int)
    requires Ranked(graph, rank)
    ensures node !in graph ==> r == depth
    ensures depth >= 0 ==> r >= depth
    decreases Height(graph, rank, node), 1, 0
  {
    if node in graph then depth + SumWeights(graph, rank, graph[node], depth + 1, rank[node])
    else depth
  }

  /** The weights of `children`, each at `depth`, summed. */
  function SumWeights<N(==)>(graph: Graph<N>, rank: map<N, nat>, children: seq<N>, depth: int, bound: nat): (r: int)
    requires Ranked(graph, rank)
    requires forall c :: c in children ==> Height(graph, rank, c) <= bound
    ensures depth >= 0 ==> r >= depth * |children|
    decreases bound, 2, |children|
  {
    if |children| == 0 then 0
    else CalcWeight(graph, rank, children[0], depth) + SumWeights(graph, rank, children[1..], depth, bound)
  }

  /** The number of bodies in the tree below `node`, itself included. */
  function Size<N(==)>(graph: Graph<N>, rank: map<N, nat>, node: N): (r: nat)
    requires Ranked(graph, rank)
    ensures r >= 1
    decreases Height(graph, rank, node), 1, 0
  {
    if node in graph then 1 + SumSizes(graph, rank, graph[node], rank[node]) else 1
  }

  function SumSizes<N(==)>(graph: Graph<N>, rank: map<N, nat>, children: seq<N>, bound: nat): (r: nat)
    requires Ranked(graph, rank)
    requires forall c :: c in children ==> Height(graph, rank, c) <= bound
    ensures r >= |children|
    decreases bound, 2, |children|
  {
    if |children| == 0 then 0
    else Size(graph, rank, children[0]) + SumSizes(graph, rank, children[1..], bound)
  }

  /** Distributivity, kept apart so the inductions below stay linear. */
  lemma Distribute(a: int, b: int, c: int)
    ensures a * (b + c) == a * b + a * c && (b + c) * a == b * a + c * a
  {
  }

  /** Starting `d` levels deeper adds `d` to the depth of every body of the
      tree: the weight grows by `d` times the size. */
  lemma {:induction false} WeightShift<N>(graph: Graph<N>, rank: map<N, nat>, node: N, d: int)
    requires Ranked(graph, rank)
    ensures CalcWeight(graph, rank, node, d) == CalcWeight(graph, rank, node, 0) + d * Size(graph, rank, node)
    decreases Height(graph, rank, node), 1, 0
  {
    if node in graph {
      var children := graph[node];
      SumWeightsShift(graph, rank, children, 1, d, rank[node]);
      var t: int := SumSizes(graph, rank, children, rank[node]);
      Distribute(d, 1, t);
    }
  }

  lemma {:induction false} SumWeightsShift<N>(graph: Graph<N>, rank: map<N, nat>, children: seq<N>, depth: int, d: int, bound: nat)
    requires Ranked(graph, rank)
    requires forall c :: c in children ==> Height(graph, rank, c) <= bound
    ensures SumWeights(graph, rank, children, depth + d, bound)
         == SumWeights(graph, rank, children, depth, bound) + d * SumSizes(graph, rank, children, bound)
    decreases bound, 2, |children|
  {
    if |children| > 0 {
      var c, rest := children[0], children[1..];
      WeightShift(graph, rank, c, depth + d);
      WeightShift(graph, rank, c, depth);
      SumWeightsShift(graph, rank, rest, depth, d, bound);
      var sz: int, t: int := Size(graph, rank, c), SumSizes(graph, rank, rest, bound);
      Distribute(sz, depth, d);
      Distribute(d, sz, t);
    }
  }

  /** The bodies of the example map of the puzzle. */
  datatype Body = COM | B | C | D | E | F | G | H | I | J | K | L

  /** The bodies that something orbits in the example. */
  const Orbited: set<Body> := {COM, B, G, C, D, E, J, K}

  function ExampleChildren(b: Body): seq<Body> {
    match b
    case COM => [B]
    case B => [G, C]
    case G => [H]
    case C => [D]
    case D => [I, E]
    case E => [F, J]
    case J => [K]
    case K => [L]
    case _ => []
  }

  /** The height of each orbited body above the deepest one. */
  function ExampleHeight(b: Body): nat {
    match b
    case COM => 6
    case B => 5
    case C => 4
    case D => 3
    case E => 2
    case J => 1
    case _ => 0
  }

  const ExampleMap: Graph<Body> := map b | b in Orbited :: ExampleChildren(b)

  const ExampleRank: map<Body, nat> := map b | b in Orbited :: ExampleHeight(b)

  /** The example map is a tree: the ranks witness it. */
  lemma ExampleRanked()
    ensures Ranked(ExampleMap, ExampleRank)
  {
    forall k | k in ExampleMap
      ensures forall c :: c in ExampleMap[k] && c in ExampleMap ==> c in ExampleRank && ExampleRank[c] < ExampleRank[k]
    {
      assert ExampleMap[k] == ExampleChildren(k);
      ExampleHeightDrops(k);
    }
  }

  /** Every orbited child sits lower than its parent. */
  lemma ExampleHeightDrops(b: Body)
    ensures forall c :: c in ExampleChildren(b) && c in Orbited ==> ExampleHeight(c) < ExampleHeight(b)
  {
  }

  lemma SumWeightsOne<N>(graph: Graph<N>, rank: map<N, nat>, a: N, depth: int, bound: nat)
    requires Ranked(graph, rank) && Height(graph, rank, a) <= bound
    ensures SumWeights(graph, rank, [a], depth, bound) == CalcWeight(graph, rank, a, depth)
  {
    assert [a][1..] == [];
  }

  lemma SumWeightsTwo<N>(graph: Graph<N>, rank: map<N, nat>, a: N, b: N, depth: int, bound: nat)
    requires Ranked(graph, rank) && Height(graph, rank, a) <= bound && Height(graph, rank, b) <= bound
    ensures SumWeights(graph, rank, [a, b], depth, bound) == CalcWeight(graph, rank, a, depth) + CalcWeight(graph, rank, b, depth)
  {
    assert [a, b][1..] == [b];
    SumWeightsOne(graph, rank, b, depth, bound);
  }

  lemma ExampleMapShape()
    ensures && COM in ExampleMap && ExampleMap[COM] == [B] && B in ExampleMap && ExampleMap[B] == [G, C]
            && G in ExampleMap && ExampleMap[G] == [H] && C in ExampleMap && ExampleMap[C] == [D]
            && D in ExampleMap && ExampleMap[D] == [I, E] && E in ExampleMap && ExampleMap[E] == [F, J]
            && J in ExampleMap && ExampleMap[J] == [K] && K in ExampleMap && ExampleMap[K] == [L]
    ensures H !in ExampleMap && I !in ExampleMap && F !in ExampleMap && L !in ExampleMap
  {
  }

  /** Any ranked map with the shape of the example has 42 orbits. */
  lemma ExampleShapeWeight(g: Graph<Body>, r: map<Body, nat>)
    requires Ranked(g, r)
    requires && COM in g && g[COM] == [B] && B in g && g[B] == [G, C] && G in g && g[G] == [H]
             && C in g && g[C] == [D] && D in g && g[D] == [I, E] && E in g && g[E] == [F, J]
             && J in g && g[J] == [K] && K in g && g[K] == [L]
    requires H !in g && I !in g && F !in g && L !in g
    ensures CalcWeight(g, r, COM, 0) == 42
  {
    SumWeightsOne(g, r, L, 7, r[K]);
    SumWeightsOne(g, r, K, 6, r[J]);
    SumWeightsTwo(g, r, F, J, 5, r[E]);
    SumWeightsTwo(g, r, I, E, 4, r[D]);
    SumWeightsOne(g, r, D, 3, r[C]);
    SumWeightsOne(g, r, H, 3, r[G]);
    SumWeightsTwo(g, r, G, C, 2, r[B]);
    SumWeightsOne(g, r, B, 1, r[COM]);
  }

  /** The example map has 42 direct and indirect orbits. */
  lemma ExampleWeight()
    ensures Ranked(ExampleMap, ExampleRank)
    ensures CalcWeight(ExampleMap, ExampleRank, COM, 0) == 42
  {
    ExampleRanked();
    ExampleMapShape();
    ExampleShapeWeight(ExampleMap, ExampleRank);
  }

  // ---------------------------------------------------------------------
  // Orbital transfers

  datatype OrbitError<N> =
    | NoEntry(node: N)  // a dequeued body has no entry in the graph
    | Underflow(steps: nat)  // the target was reached in fewer than two steps
    | OutOfFuel              // the search was cut short

  datatype Search = Found(steps: nat) | Exhausted

  /** The queue entries of the unvisited `children`, one step further. */
  function Enqueue<N(==)>(children: seq<N>, visited: set<N>, steps: nat): (r: seq<(N, nat)>)
    ensures forall e :: e in r ==> e.0 in children && e.0 !in visited && e.1 == steps
    ensures forall c :: c in children && c !in visited ==> (c, steps) in r
  {
    if |children| == 0 then []
    else (if children[0] in visited then [] else [(children[0], steps)]) + Enqueue(children[1..], visited, steps)
  }

  /** Enqueueing a single child queues it unless it was visited. */
  lemma EnqueueOne<N>(c: N, visited: set<N>, steps: nat)
    ensures Enqueue([c], visited, steps) == if c in visited then [] else [(c, steps)]
  {
    assert [c][1..] == [];
  }

  /** Enqueueing keeps the children's order: the entries of a concatenation
      are those of its first part followed by those of its second. */
  lemma {:induction false} EnqueueAppend<N>(a: seq<N>, b: seq<N>, visited: set<N>, steps: nat)
    ensures Enqueue(a + b, visited, steps) == Enqueue(a, visited, steps) + Enqueue(b, visited, steps)
    decreases |a|
  {
    if |a| == 0 {
      assert a + b == b;
    } else {
      assert (a + b)[0] == a[0];
      assert (a + b)[1..] == a[1..] + b;
      EnqueueAppend(a[1..], b, visited, steps);
    }
  }

  /** The loop of `bfs`: dequeue the front; stop at the target; otherwise
      mark it visited and enqueue its unvisited neighbours. `fuel` bounds
      the number of dequeues. */
  function SearchFrom<N(==)>(graph: Graph<N>, to: N, queue: seq<(N, nat)>, visited: set<N>, fuel: nat)
    : (r: Result<Search, OrbitError<N>>)
    decreases fuel
  {
    if |queue| == 0 then Success(Exhausted)
    else if fuel == 0 then Failure(OutOfFuel)
    else
      var (actual, steps) := queue[0];
      if actual == to then Success(Found(steps))
      else if actual !in graph then Failure(NoEntry(actual))
      else
        var marked := visited + {actual};
        SearchFrom(graph, to, queue[1..] + Enqueue(graph[actual], marked, steps + 1), marked, fuel - 1)
  }

  /** `bfs`: the number of orbital transfers between `from` and `to`, two less
      than the steps to reach `to`; 0 when `to` is never reached. */
  function Bfs<N(==)>(graph: Graph<N>, from: N, to: N, fuel: nat): (r: Result<nat, OrbitError<N>>)
    ensures fuel > 0 && from == to ==> r == Failure(Underflow(0))
    ensures fuel > 0 && from != to && from !in graph ==> r == Failure(NoEntry(from))
  {
    var s :- SearchFrom(graph, to, [(from, 0)], {}, fuel);
    match s
    case Exhausted => Success(0)
    case Found(n) => if n < 2 then Failure(Underflow(n)) else Success(n - 2)
  }

  /** `w` is a walk along the edges of `graph`. */
  predicate IsWalk<N(==)>(graph: Graph<N>, w: seq<N>) {
    && |w| > 0
    && forall i :: 0 <= i < |w| - 1 ==> w[i] in graph && w[i + 1] in graph[w[i]]
  }

  /** There is a walk of `n` steps from `from` to `v`. */
  ghost predicate WalkTo<N(!new)>(graph: Graph<N>, from: N, v: N, n: nat) {
    exists w :: IsWalk(graph, w) && |w| == n + 1 && w[0] == from && w[n] == v
  }

  ghost predicate Reachable<N(!new)>(graph: Graph<N>, from: N, to: N) {
    exists w :: IsWalk(graph, w) && w[0] == from && w[|w| - 1] == to
  }

  /** Every queue entry is reached by a walk of its step count. */
  ghost predicate QueueSound<N(!new)>(graph: Graph<N>, from: N, queue: seq<(N, nat)>) {
    forall j :: 0 <= j < |queue| ==> WalkTo(graph, from, queue[j].0, queue[j].1)
  }

  lemma ExtendWalk<N(!new)>(graph: Graph<N>, from: N, v: N, n: nat, c: N)
    requires WalkTo(graph, from, v, n)
    requires v in graph && c in graph[v]
    ensures WalkTo(graph, from, c, n + 1)
  {
    var w :| IsWalk(graph, w) && |w| == n + 1 && w[0] == from && w[n] == v;
    var w' := w + [c];
    assert IsWalk(graph, w');
    assert w'[0] == from && w'[n + 1] == c;
  }

  lemma {:induction false} SearchFoundIsWalk<N(!new)>(graph: Graph<N>, from: N, to: N, queue: seq<(N, nat)>,
                                             visited: set<N>, fuel: nat, n: nat)
    requires QueueSound(graph, from, queue)
    requires SearchFrom(graph, to, queue, visited, fuel) == Success(Found(n))
    ensures WalkTo(graph, from, to, n)
    decreases fuel
  {
    SearchFoundStep(graph, to, queue, visited, fuel, n);
    var (actual, steps) := queue[0];
    if actual == to {
      assert WalkTo(graph, from, queue[0].0, queue[0].1);
    } else {
      var marked := visited + {actual};
      var added := Enqueue(graph[actual], marked, steps + 1);
      QueueSoundStep(graph, from, queue, added);
      SearchFoundIsWalk(graph, from, to, queue[1..] + added, marked, fuel - 1, n);
    }
  }

  /** A search that finds the target either has it at the front of the
      queue or finds it after one dequeue. */
  lemma SearchFoundStep<N>(graph: Graph<N>, to: N, queue: seq<(N, nat)>, visited: set<N>, fuel: nat, n: nat)
    requires SearchFrom(graph, to, queue, visited, fuel) == Success(Found(n))
    ensures |queue| > 0 && fuel > 0
    ensures queue[0].0 == to ==> n == queue[0].1
    ensures queue[0].0 != to ==>
              var (actual, steps) := queue[0];
              var marked := visited + {actual};
              && actual in graph
              && SearchFrom(graph, to, queue[1..] + Enqueue(graph[actual], marked, steps + 1), marked, fuel - 1)
                 == Success(Found(n))
  {
  }

  /** Dequeuing a body and enqueuing some of its neighbours one step further
      keeps every entry reached by a walk of its step count. */
  lemma QueueSoundStep<N(!new)>(graph: Graph<N>, from: N, queue: seq<(N, nat)>, added: seq<(N, nat)>)
    requires QueueSound(graph, from, queue) && |queue| > 0 && queue[0].0 in graph
    requires forall e :: e in added ==> e.0 in graph[queue[0].0] && e.1 == queue[0].1 + 1
    ensures QueueSound(graph, from, queue[1..] + added)
  {
    var next := queue[1..] + added;
    forall j | 0 <= j < |next|
      ensures WalkTo(graph, from, next[j].0, next[j].1)
    {
      if j < |queue| - 1 {
        assert next[j] == queue[j + 1];
      } else {
        assert next[j] in added;
        ExtendWalk(graph, from, queue[0].0, queue[0].1, next[j].0);
      }
    }
  }

  function QueuedNodes<N(==)>(queue: seq<(N, nat)>): set<N> {
    set e | e in queue :: e.0
  }

  /** What the search keeps while it runs: the start is visited or queued, the
      target is not visited, every visited body has an entry and each of its
      neighbours is visited or queued. */
  predicate Frontier<N(==)>(graph: Graph<N>, from: N, to: N, queue: seq<(N, nat)>, visited: set<N>) {
    && (from in visited || from in QueuedNodes(queue))
    && to !in visited
    && visited <= graph.Keys
    && forall v, c :: v in visited && c in graph[v] ==> c in visited || c in QueuedNodes(queue)
  }

  /** One dequeue of a body other than the target, with an entry, keeps the
      frontier. */
  lemma FrontierStep<N>(graph: Graph<N>, from: N, to: N, queue: seq<(N, nat)>, visited: set<N>)
    requires Frontier(graph, from, to, queue, visited)
    requires |queue| > 0 && queue[0].0 != to && queue[0].0 in graph
    ensures var (actual, steps) := queue[0];
            var marked := visited + {actual};
            Frontier(graph, from, to, queue[1..] + Enqueue(graph[actual], marked, steps + 1), marked)
  {
    var (actual, steps) := queue[0];
    var marked := visited + {actual};
    var added := Enqueue(graph[actual], marked, steps + 1);
    var next := queue[1..] + added;
    assert QueuedNodes(queue) <= QueuedNodes(next) + {actual} by {
      forall e | e in queue
        ensures e.0 in QueuedNodes(next) + {actual}
      {
        var j :| 0 <= j < |queue| && queue[j] == e;
        if j > 0 {
          assert next[j - 1] == e;
        }
      }
    }
    forall v, c | v in marked && c in graph[v]
      ensures c in marked || c in QueuedNodes(next)
    {
      if v == actual && c !in marked {
        assert (c, steps + 1) in next;
      }
    }
  }

  lemma {:induction false} SearchExhaustedIsClosed<N>(graph: Graph<N>, from: N, to: N, queue: seq<(N, nat)>,
                                                          visited: set<N>, fuel: nat)
    requires Frontier(graph, from, to, queue, visited)
    requires SearchFrom(graph, to, queue, visited, fuel) == Success(Exhausted)
    ensures exists closed :: Frontier(graph, from, to, [], closed)
    decreases fuel
  {
    if |queue| == 0 {
      assert Frontier(graph, from, to, [], visited);
    } else {
      var (actual, steps) := queue[0];
      var marked := visited + {actual};
      FrontierStep(graph, from, to, queue, visited);
      SearchExhaustedIsClosed(graph, from, to, queue[1..] + Enqueue(graph[actual], marked, steps + 1), marked, fuel - 1);
    }
  }

  /** A set that holds the start, not the target, and is closed under edges
      leaves the target unreachable. */
  lemma NoWalkOut<N(!new)>(graph: Graph<N>, from: N, to: N, closed: set<N>)
    requires Frontier(graph, from, to, [], closed)
    ensures !Reachable(graph, from, to)
  {
    if Reachable(graph, from, to) {
      var w :| IsWalk(graph, w) && w[0] == from && w[|w| - 1] == to;
      var i := 0;
      while i < |w| - 1
        invariant 0 <= i < |w|
        invariant w[i] in closed
      {
        i := i + 1;
      }
      assert false;
    }
  }

  /** The answer of `bfs` is either two less than the length of a walk from
      `from` to `to`, or 0 with `to` unreachable from `from`. */
  lemma BfsSound<N(!new)>(graph: Graph<N>, from: N, to: N, fuel: nat, r: nat)
    requires Bfs(graph, from, to, fuel) == Success(r)
    ensures WalkTo(graph, from, to, r + 2) || (r == 0 && !Reachable(graph, from, to))
  {
    var s := SearchFrom(graph, to, [(from, 0)], {}, fuel).value;
    match s
    case Found(n) =>
      assert WalkTo(graph, from, from, 0) by {
        assert IsWalk(graph, [from]);
      }
      SearchFoundIsWalk(graph, from, to, [(from, 0)], {}, fuel, n);
    case Exhausted =>
      assert from in QueuedNodes([(from, 0)]);
      SearchExhaustedIsClosed(graph, from, to, [(from, 0)], {}, fuel);
      var closed :| Frontier(graph, from, to, [], closed);
      NoWalkOut(graph, from, to, closed);
  }
}

=== FILE: day7.dfy ===
/** Amplifier circuits: a serial chain of interpreters, each fed a phase
    setting and the previous stage's signal, and a feedback loop that
    resumes suspend-on-output interpreters round-robin until one of them
    produces no output. */
module Amplifiers {
  import opened Results
  import opened Computer
  import ComputerLemmas

  datatype AmpError =
    | MachineFault(fault: Fault)  // a stage's interpreter faulted
    | NoOutput                    // a stage finished without any output
    | OutOfFuel                   // a stage, or the feedback loop, ran out of fuel
    | NoInterpreter(index: nat)   // the feedback loop addressed a missing interpreter

  /** Lifts a run outcome into the amplifier error domain. */
  function Finish(r: RunResult): (res: Result<Machine, AmpError>)
    ensures r.Finished? <==> res.Success?
    ensures r.Finished? ==> res.value == r.machine
    ensures r.Crashed? ==> res == Failure(MachineFault(r.fault))
    ensures r.OutOfFuel? ==> res == Failure(AmpError.OutOfFuel)
  {
    match r
    case Finished(m) => Success(m)
    case Crashed(f) => Failure(MachineFault(f))
    case OutOfFuel => Failure(AmpError.OutOfFuel)
  }

  // ---------------------------------------------------------------- serial chain

  /** One stage: a fresh interpreter over `program` with the phase and then
      the signal queued, run to its halt; the stage's result is its last
      output. */
  function RunStep(program: seq<int>, phase: int, signal: int, fuel: nat): (r: Result<int, AmpError>)
    ensures var run := Run(Machine(program, [phase, signal], [], 0, false, false), fuel);
            && (r.Success? <==> run.Finished? && |run.machine.output| > 0)
            && (r.Success? ==> r.value == run.machine.output[|run.machine.output| - 1])
            && (run.Finished? && |run.machine.output| == 0 ==> r == Failure(NoOutput))
            && (run.Crashed? ==> r == Failure(MachineFault(run.fault)))
  {
    var m := AddInput(AddInput(New(program), phase), signal);
    assert m == Machine(program, [phase, signal], [], 0, false, false);
    var n :- Finish(Run(m, fuel));
    var out := GetOutput(n);
    if |out| == 0 then Failure(NoOutput) else Success(out[|out| - 1])
  }

  /** Reference definition of the serial chain: the signal passes through
      one stage per phase, in phase order. */
  function Chain(program: seq<int>, phases: seq<int>, signal: int, fuel: nat): Result<int, AmpError>
    decreases |phases|
  {
    if |phases| == 0 then Success(signal)
    else
      var next :- RunStep(program, phases[0], signal, fuel);
      Chain(program, phases[1..], next, fuel)
  }

  /** Running the chain over `a + b` runs it over `a`, then over `b` from
      the signal `a` produced. */
  lemma {:induction false} ChainAppend(program: seq<int>, a: seq<int>, b: seq<int>, signal: int, fuel: nat)
    ensures Chain(program, a + b, signal, fuel) ==
              match Chain(program, a, signal, fuel)
              case Success(s) => Chain(program, b, s, fuel)
              case Failure(e) => Failure(e)
    decreases |a|
  {
    if |a| == 0 {
      assert a + b == b;
    } else {
      assert (a + b)[1..] == a[1..] + b;
      match RunStep(program, a[0], signal, fuel)
      case Failure(_) =>
      case Success(next) => ChainAppend(program, a[1..], b, next, fuel);
    }
  }

  /** `run_for_permutation`: the chain from signal 0, stage by stage. */
  method RunForPermutation(program: seq<int>, phases: seq<int>, fuel: nat) returns (r: Result<int, AmpError>)
    ensures r == Chain(program, phases, 0, fuel)
    ensures |phases| == 0 ==> r == Success(0)
    ensures |phases| == 1 ==> r == RunStep(program, phases[0], 0, fuel)
  {
    var input := 0;
    var i := 0;
    while i < |phases|
      invariant 0 <= i <= |phases|
      invariant Chain(program, phases, 0, fuel) == Chain(program, phases[i..], input, fuel)
    {
      var next := RunStep(program, phases[i], input, fuel);
      if next.Failure? {
        return Failure(next.error);
      }
      assert phases[i..][1..] == phases[i + 1..];
      input := next.value;
      i := i + 1;
    }
    assert phases[i..] == [];
    return Success(input);
  }

  // ---------------------------------------------------------------- feedback loop

  /** The interpreters of the feedback loop: each suspends on output and
      has its phase as its first input. */
  function InitAmplifiers(program: seq<int>, phases: seq<int>): (ms: seq<Machine>)
    ensures |ms| == |phases|
    ensures forall k :: 0 <= k < |ms| ==> ms[k] == Machine(program, [phases[k]], [], 0, false, true)
  {
    seq(|phases|, k requires 0 <= k < |phases| => AddInput(WithHaltOnOutput(New(program)), phases[k]))
  }

  /** Every interpreter suspends on output and holds no pending output. */
  predicate AllQuiet(ms: seq<Machine>) {
    forall k :: 0 <= k < |ms| ==> ms[k].haltOnOutput && ms[k].output == []
  }

  /** The loop uses five interpreters: iteration `k` drives interpreter `k % 5`. */
  const Amplifiers: nat := 5

  /** The interpreter iteration `k` drives. */
  function Slot(k: nat): (j: nat)
    ensures j < Amplifiers
  {
    k % Amplifiers
  }

  /** A finished run keeps the configuration and pending output, and in
      suspend-on-output mode adds at most one output value. */
  lemma FinishedRunOutput(m: Machine, fuel: nat)
    requires Run(m, fuel).Finished?
    ensures var n := Run(m, fuel).machine;
            && n.haltOnOutput == m.haltOnOutput
            && |m.output| <= |n.output| && n.output[..|m.output|] == m.output
            && (m.haltOnOutput ==> |n.output| <= |m.output| + 1)
  {
    ComputerLemmas.RunExtendsQueues(m, fuel);
    if m.haltOnOutput {
      ComputerLemmas.RunSuspendsAfterOneOutput(m, fuel);
    }
  }

  /** Iteration `k` of the feedback loop: the signal is queued on interpreter
      `k % 5`, which is resumed; its newest output, if any, is popped and
      becomes the next signal. */
  function Round(ms: seq<Machine>, k: nat, signal: int, fuel: nat): (r: Result<(seq<Machine>, Option<int>), AmpError>)
    ensures Slot(k) >= |ms| ==> r == Failure(NoInterpreter(Slot(k)))
    ensures Slot(k) < |ms| ==>
              var run := Run(AddInput(ms[Slot(k)], signal), fuel);
              && (r.Success? <==> run.Finished?)
              && (!run.Finished? ==> r == Failure(Finish(run).error))
    ensures r.Success? ==>
              && Slot(k) < |ms| && |r.value.0| == |ms|
              && (forall j :: 0 <= j < |ms| && j != Slot(k) ==> r.value.0[j] == ms[j])
    ensures r.Success? ==>
              var n := Run(AddInput(ms[Slot(k)], signal), fuel).machine;
              && (r.value.1.None? <==> |n.output| == 0)
              && (r.value.1.None? ==> r.value.0[Slot(k)] == n)
              && (r.value.1.Some? ==>
                    && r.value.1.value == n.output[|n.output| - 1]
                    && r.value.0[Slot(k)] == n.(output := n.output[..|n.output| - 1]))
    ensures r.Success? && AllQuiet(ms) ==>
              var run := Run(AddInput(ms[Slot(k)], signal), fuel);
              && AllQuiet(r.value.0)
              && run.Finished?
              && (r.value.1.None? <==> run.machine.output == [])
              && (r.value.1.Some? ==> run.machine.output == [r.value.1.value])
  {
    var idx := Slot(k);
    if idx >= |ms| then Failure(NoInterpreter(idx))
    else
      var resumed := AddInput(ms[idx], signal);
      var n :- Finish(Run(resumed, fuel));
      FinishedRunOutput(resumed, fuel);
      if |n.output| == 0 then Success((ms[idx := n], None))
      else Success((ms[idx := n.(output := n.output[..|n.output| - 1])], Some(n.output[|n.output| - 1])))
  }

  /** A single iteration over the interpreters: given them, the iteration
      number and the signal, it yields the updated interpreters and the
      signal produced, if any. */
  type RoundFunction = (seq<Machine>, nat, int) -> Result<(seq<Machine>, Option<int>), AmpError>

  /** The feedback loop over any iteration function from iteration `k`;
      `rounds` bounds the number of iterations. It stops at the first
      iteration that produces no signal and returns the signal that
      iteration was given. */
  function Iterate(round: RoundFunction, ms: seq<Machine>, k: nat, signal: int, rounds: nat): Result<int, AmpError>
    decreases rounds
  {
    if rounds == 0 then Failure(AmpError.OutOfFuel)
    else
      var (next, out) :- round(ms, k, signal);
      match out
      case None => Success(signal)
      case Some(o) => Iterate(round, next, k + 1, o, rounds - 1)
  }

  /** The amplifiers' iteration, each interpreter resumed with `fuel`. */
  function Rounds(fuel: nat): RoundFunction {
    (ms: seq<Machine>, k: nat, s: int) => Round(ms, k, s, fuel)
  }

  /** The feedback loop of the amplifiers. */
  function Feedback(ms: seq<Machine>, k: nat, signal: int, rounds: nat, fuel: nat): Result<int, AmpError> {
    Iterate(Rounds(fuel), ms, k, signal, rounds)
  }

  /** `run_loop_for_permutation`: the feedback loop over freshly initialised
      interpreters, starting at interpreter 0 with signal 0. */
  function RunLoopForPermutation(program: seq<int>, phases: seq<int>, rounds: nat, fuel: nat): (r: Result<int, AmpError>)
    ensures |phases| == 0 && rounds >= 1 ==> r == Failure(NoInterpreter(0))
  {
    Feedback(InitAmplifiers(program, phases), 0, 0, rounds, fuel)
  }

  /** The freshly initialised interpreters suspend on output and hold no output. */
  lemma InitQuiet(program: seq<int>, phases: seq<int>)
    ensures AllQuiet(InitAmplifiers(program, phases))
  {
  }

  /** Reference definition, counting forwards: the interpreters and the
      signal after `j` productive iterations from iteration `k`, or None if
      one of the first `j` iterations failed or produced nothing. */
  function After(round: RoundFunction, ms: seq<Machine>, k: nat, signal: int, j: nat): Option<(seq<Machine>, int)>
  {
    if j == 0 then Some((ms, signal))
    else
      match After(round, ms, k, signal, j - 1)
      case None => None
      case Some((ms', s)) =>
        match round(ms', k + j - 1, s)
        case Success((next, Some(o))) => Some((next, o))
        case _ => None
  }

  /** Iteration `k + j` is the first silent one, and it was given signal `v`. */
  predicate SilentAt(round: RoundFunction, ms: seq<Machine>, k: nat, signal: int, j: nat, v: int) {
    var a := After(round, ms, k, signal, j);
    && a.Some? && a.value.1 == v
    && var r := round(a.value.0, k + j, v);
       r.Success? && r.value.1.None?
  }

  /** Skipping a productive first iteration shifts the forward count by one. */
  lemma {:induction false} AfterShift(round: RoundFunction, ms: seq<Machine>, k: nat, signal: int, j: nat)
    requires round(ms, k, signal).Success? && round(ms, k, signal).value.1.Some?
    ensures var (next, out) := round(ms, k, signal).value;
            After(round, ms, k, signal, j + 1) == After(round, next, k + 1, out.value, j)
    decreases j
  {
    if j > 0 {
      AfterShift(round, ms, k, signal, j - 1);
      var (next, out) := round(ms, k, signal).value;
      assert k + (j + 1) - 1 == (k + 1) + j - 1;
    }
  }

  /** After a productive first iteration, being silent at `j + 1` is being
      silent at `j` counted from the second iteration. */
  lemma SilentShift(round: RoundFunction, ms: seq<Machine>, k: nat, signal: int, j: nat, v: int)
    requires round(ms, k, signal).Success? && round(ms, k, signal).value.1.Some?
    ensures var (next, out) := round(ms, k, signal).value;
            SilentAt(round, ms, k, signal, j + 1, v) == SilentAt(round, next, k + 1, out.value, j, v)
  {
    AfterShift(round, ms, k, signal, j);
    assert k + (j + 1) == (k + 1) + j;
  }

  /** The loop succeeds with `v` exactly when, within the bound, some
      iteration is the first silent one and was given `v`: it stops the
      first time an interpreter yields nothing and returns the last signal
      produced. */
  lemma {:induction false} IterateStopsAtFirstSilence(round: RoundFunction, ms: seq<Machine>, k: nat, signal: int, rounds: nat, v: int)
    ensures Iterate(round, ms, k, signal, rounds) == Success(v) <==>
              exists j :: 0 <= j < rounds && SilentAt(round, ms, k, signal, j, v)
    decreases rounds
  {
    if rounds > 0 && round(ms, k, signal).Success? && round(ms, k, signal).value.1.Some? {
      var (next, out) := round(ms, k, signal).value;
      IterateStopsAtFirstSilence(round, next, k + 1, out.value, rounds - 1, v);
      assert Iterate(round, ms, k, signal, rounds) == Iterate(round, next, k + 1, out.value, rounds - 1);
      SilentLater(round, ms, k, signal, rounds, v, next, out.value, k + 1);
    } else if rounds > 0 {
      SilentFirstOnly(round, ms, k, signal, rounds, v);
      if Iterate(round, ms, k, signal, rounds) == Success(v) {
        assert SilentAt(round, ms, k, signal, 0, v);
      }
    }
  }

  /** When the first iteration fails or is silent, no later one can be the
      first silent one. */
  lemma SilentFirstOnly(round: RoundFunction, ms: seq<Machine>, k: nat, signal: int, rounds: nat, v: int)
    requires round(ms, k, signal).Failure? || round(ms, k, signal).value.1.None?
    ensures (exists j :: 0 <= j < rounds && SilentAt(round, ms, k, signal, j, v))
            <==> rounds > 0 && SilentAt(round, ms, k, signal, 0, v)
  {
    forall j | 0 < j < rounds
      ensures !SilentAt(round, ms, k, signal, j, v)
    {
      AfterNoneAfterSilence(round, ms, k, signal, j);
    }
  }

  /** When the first iteration produces a signal, the first silent one is
      found among the rest, counted from the second. */
  lemma SilentLater(round: RoundFunction, ms: seq<Machine>, k: nat, signal: int, rounds: nat, v: int,
                    next: seq<Machine>, out: int, k': nat)
    requires rounds > 0 && round(ms, k, signal) == Success((next, Some(out))) && k' == k + 1
    ensures (exists j :: 0 <= j < rounds && SilentAt(round, ms, k, signal, j, v))
            <==> (exists j :: 0 <= j < rounds - 1 && SilentAt(round, next, k', out, j, v))
  {
    forall j | 0 < j < rounds
      ensures SilentAt(round, ms, k, signal, j, v) == SilentAt(round, next, k', out, j - 1, v)
    {
      SilentShift(round, ms, k, signal, j - 1, v);
    }
    if exists j :: 0 <= j < rounds - 1 && SilentAt(round, next, k', out, j, v) {
      var j :| 0 <= j < rounds - 1 && SilentAt(round, next, k', out, j, v);
      assert SilentAt(round, ms, k, signal, j + 1, v);
    }
    if exists j :: 0 <= j < rounds && SilentAt(round, ms, k, signal, j, v) {
      var j :| 0 <= j < rounds && SilentAt(round, ms, k, signal, j, v);
      assert SilentAt(round, next, k', out, j - 1, v);
    }
  }


  /** Past a first iteration that fails or is silent, the forward count has
      no state. */
  lemma {:induction false} AfterNoneAfterSilence(round: RoundFunction, ms: seq<Machine>, k: nat, signal: int, j: nat)
    requires j >= 1
    requires round(ms, k, signal).Failure? || round(ms, k, signal).value.1.None?
    ensures After(round, ms, k, signal, j) == None
    decreases j
  {
    if j > 1 {
      AfterNoneAfterSilence(round, ms, k, signal, j - 1);
    }
  }

  /** Extra iterations do not change the outcome of a loop that has already
      stopped on a silent iteration. */
  lemma {:induction false} IterateRoundsMonotone(round: RoundFunction, ms: seq<Machine>, k: nat, signal: int, rounds: nat, more: nat)
    requires Iterate(round, ms, k, signal, rounds).Success? && rounds <= more
    ensures Iterate(round, ms, k, signal, more) == Iterate(round, ms, k, signal, rounds)
    decreases rounds
  {
    var (next, out) := round(ms, k, signal).value;
    if out.Some? {
      IterateRoundsMonotone(round, next, k + 1, out.value, rounds - 1, more - 1);
    }
  }

  /** Extra iterations do not change the outcome of a feedback loop that has
      already stopped on a silent interpreter. */
  lemma FeedbackRoundsMonotone(ms: seq<Machine>, k: nat, signal: int, rounds: nat, more: nat, fuel: nat)
    requires Feedback(ms, k, signal, rounds, fuel).Success? && rounds <= more
    ensures Feedback(ms, k, signal, more, fuel) == Feedback(ms, k, signal, rounds, fuel)
  {
    IterateRoundsMonotone(Rounds(fuel), ms, k, signal, rounds, more);
  }

  /** An iteration function that, whenever it succeeds, keeps every
      interpreter quiet and their number unchanged. */
  ghost predicate KeepsQuiet(round: RoundFunction) {
    forall ms, k, s :: AllQuiet(ms) && round(ms, k, s).Success? ==>
      AllQuiet(round(ms, k, s).value.0) && |round(ms, k, s).value.0| == |ms|
  }

  /** The amplifiers' iteration keeps every interpreter quiet. */
  lemma RoundsKeepQuiet(fuel: nat)
    ensures KeepsQuiet(Rounds(fuel))
  {
    forall ms, k, s | AllQuiet(ms) && Rounds(fuel)(ms, k, s).Success?
      ensures AllQuiet(Rounds(fuel)(ms, k, s).value.0) && |Rounds(fuel)(ms, k, s).value.0| == |ms|
    {
      assert Rounds(fuel)(ms, k, s) == Round(ms, k, s, fuel);
    }
  }

  lemma {:induction false} AfterKeepsQuietFor(round: RoundFunction, ms: seq<Machine>, k: nat, signal: int, j: nat)
    requires KeepsQuiet(round)
    requires AllQuiet(ms) && After(round, ms, k, signal, j).Some?
    ensures AllQuiet(After(round, ms, k, signal, j).value.0)
    ensures |After(round, ms, k, signal, j).value.0| == |ms|
    decreases j
  {
    if j > 0 {
      AfterKeepsQuietFor(round, ms, k, signal, j - 1);
    }
  }

  /** Throughout the amplifier loop every interpreter suspends on output and
      holds no pending output, because each resumed interpreter produces at
      most one value and it is popped. */
  lemma AfterKeepsQuiet(ms: seq<Machine>, k: nat, signal: int, j: nat, fuel: nat)
    requires AllQuiet(ms) && After(Rounds(fuel), ms, k, signal, j).Some?
    ensures AllQuiet(After(Rounds(fuel), ms, k, signal, j).value.0)
    ensures |After(Rounds(fuel), ms, k, signal, j).value.0| == |ms|
  {
    RoundsKeepQuiet(fuel);
    AfterKeepsQuietFor(Rounds(fuel), ms, k, signal, j);
  }

  /** The amplifier loop returns `v` exactly when some iteration within the
      bound is the first whose interpreter yields no output, and `v` is the
      signal it was given. */
  lemma FeedbackStopsAtFirstSilence(ms: seq<Machine>, k: nat, signal: int, rounds: nat, fuel: nat, v: int)
    ensures Feedback(ms, k, signal, rounds, fuel) == Success(v) <==>
              exists j :: 0 <= j < rounds && SilentAt(Rounds(fuel), ms, k, signal, j, v)
  {
    IterateStopsAtFirstSilence(Rounds(fuel), ms, k, signal, rounds, v);
  }
}

=== FILE: day8.dfy ===
/** The space image format: a stream of decimal digits cut into layers of
    25 by 6 pixels. The checksum looks at the layer with the fewest zeros;
    decoding stacks the layers, where 2 is transparent and the first
    non-transparent pixel from the front shows. */
module SpaceImage {
  import opened Results

  const Wide: nat := 25
  const Tall: nat := 6
  const LayerSize: nat := Wide * Tall

  const Transparent: int := 2

  type Layer = seq<int>

  datatype ImageError =
    | NotADigit(ch: char)  // a character of the input that is not a decimal digit
    | NoLayers             // the minimum over an empty list of layers

  // ---------------------------------------------------------------------
  // Reading the digits

  /** `char::to_digit(10)`. */
  function ToDigit(ch: char): Option<int> {
    if '0' <= ch <= '9' then Some(ch as int - '0' as int) else None
  }

  /** The digits of one line, failing on the first character that is not a
      digit. */
  function LineDigits(line: string): (r: Result<seq<int>, ImageError>)
    ensures r.Success? ==> |r.value| == |line| && forall i :: 0 <= i < |line| ==> ToDigit(line[i]) == Some(r.value[i])
    ensures r.Failure? ==> exists i :: 0 <= i < |line| && ToDigit(line[i]).None? && r.error == NotADigit(line[i])
    ensures r.Success? <==> forall i :: 0 <= i < |line| ==> ToDigit(line[i]).Some?
  {
    if |line| == 0 then Success([])
    else match ToDigit(line[0])
      case None => Failure(NotADigit(line[0]))
      case Some(d) =>
        var rest :- LineDigits(line[1..]);
        Success([d] + rest)
  }

  /** The lines of the input, one after another. */
  function JoinLines(lines: seq<string>): string {
    if |lines| == 0 then "" else lines[0] + JoinLines(lines[1..])
  }

  /** The digit stream of `parse_input`: every line's digits, in order. */
  function StreamDigits(lines: seq<string>): (r: Result<seq<int>, ImageError>)
    ensures r.Success? <==> forall k :: 0 <= k < |lines| ==> LineDigits(lines[k]).Success?
    ensures r.Success? ==>
              && |r.value| == |JoinLines(lines)|
              && forall i :: 0 <= i < |r.value| ==> ToDigit(JoinLines(lines)[i]) == Some(r.value[i])
  {
    if |lines| == 0 then Success([])
    else
      var first :- LineDigits(lines[0]);
      var rest :- StreamDigits(lines[1..]);
      Success(first + rest)
  }

  // ---------------------------------------------------------------------
  // Layers

  /** Concatenation of a list of layers. */
  function Concat(layers: seq<Layer>): seq<int> {
    if |layers| == 0 then [] else layers[0] + Concat(layers[1..])
  }

  /** `slice::chunks(size)`: consecutive pieces of `size` elements, the last
      one possibly shorter; none for an empty stream. */
  function Chunks(s: seq<int>, size: nat): (r: seq<Layer>)
    requires size > 0
    ensures Concat(r) == s
    ensures forall i :: 0 <= i < |r| ==> 0 < |r[i]| <= size
    ensures forall i :: 0 <= i < |r| - 1 ==> |r[i]| == size
    decreases |s|
  {
    if |s| == 0 then []
    else if |s| <= size then [s]
    else
      var rest := Chunks(s[size..], size);
      assert ([s[..size]] + rest)[1..] == rest;
      [s[..size]] + rest
  }

  /** Cutting is the inverse of concatenation: a list of non-empty pieces,
      all full but the last, is the cutting of its own concatenation. */
  lemma {:induction false} ChunksOfConcat(layers: seq<Layer>, size: nat)
    requires size > 0
    requires forall i :: 0 <= i < |layers| ==> 0 < |layers[i]| <= size
    requires forall i :: 0 <= i < |layers| - 1 ==> |layers[i]| == size
    ensures Chunks(Concat(layers), size) == layers
    decreases |layers|
  {
    if |layers| == 1 {
      assert layers[1..] == [];
      assert Concat(layers) == layers[0];
      assert layers == [layers[0]];
    } else if |layers| > 1 {
      var s, rest := Concat(layers), layers[1..];
      assert s == layers[0] + Concat(rest);
      assert Concat(rest) == rest[0] + Concat(rest[1..]);
      assert s[..size] == layers[0] && s[size..] == Concat(rest);
      ChunksOfConcat(rest, size);
      assert layers == [layers[0]] + rest;
    }
  }

  /** The layers of `parse_input`. */
  function ParseLayers(lines: seq<string>): (r: Result<seq<Layer>, ImageError>)
    ensures r.Success? <==> StreamDigits(lines).Success?
    ensures r.Success? ==> Concat(r.value) == StreamDigits(lines).value
    ensures r.Success? ==> forall i :: 0 <= i < |r.value| ==> 0 < |r.value[i]| <= LayerSize
    ensures r.Success? ==> forall i :: 0 <= i < |r.value| - 1 ==> |r.value[i]| == LayerSize
  {
    var digits :- StreamDigits(lines);
    Success(Chunks(digits, LayerSize))
  }

  /** `count_by_digit`: how many pixels of the layer hold `digit`. */
  function CountByDigit(layer: Layer, digit: int): (r: nat)
    ensures r == multiset(layer)[digit]
    ensures r <= |layer|
  {
    if |layer| == 0 then 0
    else
      assert layer == [layer[0]] + layer[1..];
      (if layer[0] == digit then 1 else 0) + CountByDigit(layer[1..], digit)
  }

  // ---------------------------------------------------------------------
  // The checksum

  /** The number of 1 digits times the number of 2 digits of a layer. */
  function Score(layer: Layer): nat {
    CountByDigit(layer, 1) * CountByDigit(layer, 2)
  }

  /** `solve1`: the number of 1 digits times the number of 2 digits on the
      first layer with the fewest 0 digits. */
  method Checksum(layers: seq<Layer>) returns (r: Result<nat, ImageError>)
    ensures |layers| == 0 <==> r == Failure(NoLayers)
    ensures r.Success? <==> |layers| > 0
    ensures r.Failure? ==> r.error == NoLayers
    ensures r.Success? ==>
              exists m :: 0 <= m < |layers|
                && r.value == CountByDigit(layers[m], 1) * CountByDigit(layers[m], 2)
                && (forall j :: 0 <= j < |layers| ==> CountByDigit(layers[m], 0) <= CountByDigit(layers[j], 0))
                && (forall j :: 0 <= j < m ==> CountByDigit(layers[j], 0) > CountByDigit(layers[m], 0))
  {
    if |layers| == 0 {
      return Failure(NoLayers);
    }
    var best := 0;
    var fewest := CountByDigit(layers[0], 0);
    var i := 1;
    while i < |layers|
      invariant 1 <= i <= |layers|
      invariant 0 <= best < i
      invariant fewest == CountByDigit(layers[best], 0)
      invariant forall j :: 0 <= j < i ==> fewest <= CountByDigit(layers[j], 0)
      invariant forall j :: 0 <= j < best ==> CountByDigit(layers[j], 0) > fewest
    {
      var zeros := CountByDigit(layers[i], 0);
      if zeros < fewest {
        best, fewest := i, zeros;
      }
      i := i + 1;
    }
    r := Success(Score(layers[best]));
  }

  // ---------------------------------------------------------------------
  // Decoding

  /** Reference: the pixel at `idx` seen through the stack of layers, front
      first: the first layer's value there that is not transparent, or
      transparent if there is none. */
  function Visible(layers: seq<Layer>, idx: nat): int {
    if |layers| == 0 then Transparent
    else if idx < |layers[0]| && layers[0][idx] != Transparent then layers[0][idx]
    else Visible(layers[1..], idx)
  }

  /** Adding a layer at the back only shows through where the front layers
      are transparent. */
  lemma {:induction false} VisibleSnoc(layers: seq<Layer>, layer: Layer, idx: nat)
    ensures Visible(layers + [layer], idx)
         == if Visible(layers, idx) != Transparent then Visible(layers, idx)
            else if idx < |layer| then layer[idx] else Transparent
    decreases |layers|
  {
    if |layers| == 0 {
      assert ([] + [layer])[1..] == [];
    } else {
      assert (layers + [layer])[1..] == layers[1..] + [layer];
      VisibleSnoc(layers[1..], layer, idx);
    }
  }

  /** One layer of `solve2`'s loop: every still transparent pixel takes the
      layer's value. */
  method Overlay(image: seq<int>, layer: Layer) returns (next: seq<int>)
    requires |layer| <= |image|
    ensures |next| == |image|
    ensures forall idx :: 0 <= idx < |image| ==>
              next[idx] == if image[idx] != Transparent || idx >= |layer| then image[idx] else layer[idx]
  {
    next := image;
    var idx := 0;
    while idx < |layer|
      invariant 0 <= idx <= |layer|
      invariant |next| == |image|
      invariant forall k :: 0 <= k < |image| ==>
                  next[k] == if image[k] != Transparent || k >= idx then image[k] else layer[k]
    {
      if next[idx] == Transparent {
        next := next[idx := layer[idx]];
      }
      idx := idx + 1;
    }
  }

  /** `solve2`'s compositing: start fully transparent and overlay every
      layer, front first. The result shows each pixel's first
      non-transparent value. */
  method Composite(layers: seq<Layer>) returns (image: seq<int>)
    requires forall l :: 0 <= l < |layers| ==> |layers[l]| <= LayerSize
    ensures |image| == LayerSize
    ensures forall idx :: 0 <= idx < LayerSize ==> image[idx] == Visible(layers, idx)
  {
    image := seq(LayerSize, _ => Transparent);
    var l := 0;
    while l < |layers|
      invariant 0 <= l <= |layers|
      invariant |image| == LayerSize
      invariant forall idx :: 0 <= idx < LayerSize ==> image[idx] == Visible(layers[..l], idx)
    {
      image := Overlay(image, layers[l]);
      assert layers[..l + 1] == layers[..l] + [layers[l]];
      forall idx | 0 <= idx < LayerSize
        ensures image[idx] == Visible(layers[..l + 1], idx)
      {
        VisibleSnoc(layers[..l], layers[l], idx);
      }
      l := l + 1;
    }
    assert layers[..l] == layers;
  }

  /** A pixel that is not transparent on some layer is not transparent in the
      image, and it shows the value of the first such layer. */
  lemma {:induction false} VisibleIsFirstOpaque(layers: seq<Layer>, idx: nat, m: nat)
    requires m < |layers| && idx < |layers[m]| && layers[m][idx] != Transparent
    requires forall j :: 0 <= j < m ==> idx >= |layers[j]| || layers[j][idx] == Transparent
    ensures Visible(layers, idx) == layers[m][idx]
    decreases m
  {
    if m > 0 {
      VisibleIsFirstOpaque(layers[1..], idx, m - 1);
    }
  }

  /** A pixel transparent on every layer stays transparent. */
  lemma {:induction false} VisibleAllTransparent(layers: seq<Layer>, idx: nat)
    requires forall j :: 0 <= j < |layers| ==> idx >= |layers[j]| || layers[j][idx] == Transparent
    ensures Visible(layers, idx) == Transparent
    decreases |layers|
  {
    if |layers| > 0 {
      VisibleAllTransparent(layers[1..], idx);
    }
  }

  /** A small stack: 0 over 1 shows 0; 2 over 1 shows 1; 2 over 2 shows 2. */
  lemma VisibleExample()
    ensures Visible([[0, 2, 2], [1, 1, 2]], 0) == 0
    ensures Visible([[0, 2, 2], [1, 1, 2]], 1) == 1
    ensures Visible([[0, 2, 2], [1, 1, 2]], 2) == 2
  {
    var ls: seq<Layer> := [[0, 2, 2], [1, 1, 2]];
    assert ls[1..] == [[1, 1, 2]];
    assert ls[1..][1..] == [];
  }
}

=== FILE: results.dfy ===
/** Failure-compatible wrappers used across the model: every Rust panic site of
    the original becomes a `Failure` value carrying what went wrong. */
module Results {

  datatype Option<+T> = None | Some(value: T)

  datatype Result<+T, +E> = Success(value: T) | Failure(error: E) {

    predicate IsFailure() {
      Failure?
    }

    function PropagateFailure<U>(): Result<U, E>
      requires Failure?
    {
      Failure(error)
    }

    function Extract(): T
      requires Success?
    {
      value
    }
  }
}

=== FILE: rust_int.dfy ===
/** Rust's signed integer `/` and `%` truncate toward zero, whereas Dafny's are
    Euclidean. The model only ever divides by a positive constant. */
module RustInt {

  /** `a / b` as Rust computes it: the quotient rounded toward zero. */
  function Quot(a: int, b: int): (q: int)
    requires b > 0
    ensures a >= 0 ==> 0 <= a - b * q < b
    ensures a < 0 ==> -b < a - b * q <= 0
  {
    if a >= 0 then a / b else -((-a) / b)
  }

  /** `a % b` as Rust computes it: the remainder takes the sign of `a`. */
  function Rem(a: int, b: int): (r: int)
    requires b > 0
    ensures a == b * Quot(a, b) + r
    ensures a >= 0 ==> 0 <= r < b
    ensures a < 0 ==> -b < r <= 0
  {
    a - b * Quot(a, b)
  }

  /** On non-negative operands truncating and Euclidean division agree. */
  lemma NonNegativeAgree(a: int, b: int)
    requires a >= 0 && b > 0
    ensures Quot(a, b) == a / b && Rem(a, b) == a % b
  {
  }

  /** Division is determined by the quotient/remainder decomposition. */
  lemma DivUnique(a: int, b: int, q: int, r: int)
    requires b > 0 && 0 <= r < b && a == b * q + r
    ensures a / b == q && a % b == r
  {
    var q' := a / b;
    var r' := a % b;
    assert b * q' + r' == b * q + r;
    if q' < q {
      assert b * (q - q') == b * q - b * q';
      MulAtLeast(b, q - q');
    } else if q' > q {
      assert b * (q' - q) == b * q' - b * q;
      MulAtLeast(b, q' - q);
    }
  }

  lemma {:induction false} MulAtLeast(b: int, k: int)
    requires b > 0 && k >= 1
    ensures b * k >= b
  {
    if k > 1 {
      MulAtLeast(b, k - 1);
      assert b * k == b * (k - 1) + b;
    }
  }

  /** The truncating quotient and remainder of a non-negative number are
      determined by any decomposition with a remainder in range. */
  lemma QuotRemUnique(a: int, b: int, q: int, r: int)
    requires a >= 0 && b > 0 && 0 <= r < b && a == b * q + r
    ensures Quot(a, b) == q && Rem(a, b) == r
  {
    DivUnique(a, b, q, r);
  }

  /** Truncating by 10 twice is truncating by 100. */
  lemma QuotTwice(a: int)
    ensures Quot(Quot(a, 10), 10) == Quot(a, 100)
  {
    var n := if a >= 0 then a else -a;
    var q := n / 100;
    var r := n % 100;
    assert n == 10 * (10 * q + r / 10) + r % 10;
    DivUnique(n, 10, 10 * q + r / 10, r % 10);
    DivUnique(10 * q + r / 10, 10, q, r / 10);
  }
}
